=== FILE: README.md ===
# Price comparison service: a Dafny model of its core

The service reads a sheet of (Praktis Code, Praktiker Code, Buyer Code) rows.
For every distinct product pair it fetches the product from both catalogues
(Praktis and Praktiker). It merges each pair's two listings into one record
and sorts the records by the pair. It then upserts them into the
ProductDetails table. A record whose Praktis Code the table lacks is a *new
item*. A record whose stored prices differ is a *price change*. It also
upserts the sheet's buyer mappings into the ProductBuyers table, reads that
table back as a pair → buyers dictionary, and routes every change to the
buyers mapped to its pair. Each buyer who has updates and an email entry
gets a report built from their share of the product data: a folder, a file
name, a subject and the filtered rows. `safe_float` is the tolerant price
parser used when the report is built.

The model is pure and functional:

- Sheets, records, tables and dictionaries are datatypes, sequences, sets
  and maps.
- A database table is a map keyed by the columns of its primary key,
  compared as exact strings.
- A fetch, a clock reading, a raising read or write and the completion order of the
  thread pool are parameters.

Modules:

- `Wrappers`: Option.
- `Seqs`: distinctness and element sets.
- `Text`: the parts of Python's `str` the code uses: `isspace`, `split()`,
  `''.join`, `replace`, and `<` on strings.
- `Helpers`: `safe_float`.
- `Records`: pairs, listings, product records, buyer rows and the tuple
  order.
- `Sorting`: `sorted` on the pair key.
- `ExcelUtils`: reading the sheet, deduplication, fetching and merging,
  and filtering by buyer.
- `DbFunctions`: the two upserts and the buyer dictionary.
- `Dispatch`: routing changes to buyers and building each buyer's report.

## Model

| member | source | states |
|---|---|---|
| Text.DropSpaces | utils/helpers.py:13 | the result holds no whitespace, is no longer than the input, and leaves whitespace-free text unchanged |
| Text.DropSpacesAppend | utils/helpers.py:13 | whitespace removal works piece by piece: removing it from `a + b` is removing it from `a` and from `b` |
| Text.Words | main.py:63 | `split()` yields non-empty, whitespace-free words whose concatenation is the text without its whitespace |
| Text.WordsAroundSpace | main.py:63 | a whitespace character splits the text: the words of `a + [c] + b` are the words of `a` followed by those of `b` |
| Text.WordsOfWord | main.py:63 | a non-empty text without whitespace is one word |
| Text.WordsAfterSpaces | main.py:63 | whitespace before the text yields no word |
| Text.WordThenSpaces | main.py:63 | a word followed by any run of whitespace is the first word, followed by the words of the rest |
| Text.WordThenEnd | main.py:63 | a word that ends the text or is followed by whitespace is the first word |
| Text.SplitFrom | main.py:63 | scanning with a word in progress yields non-empty, whitespace-free words whose concatenation is that word followed by the rest of the text without its whitespace |
| Text.Join | utils/helpers.py:13 | joining starts with the first word and, when no word holds whitespace, yields text with none |
| Text.ReplaceChar | utils/helpers.py:15 | one-character `replace` keeps the length, changes exactly the matching positions, and leaves none of the replaced character |
| Text.DropSpacesReplaceCommute | utils/helpers.py:13-15 | removing whitespace and replacing a non-whitespace character can happen in either order |
| Text.StrLt | utils/excel_utils.py:59 | no string sorts before itself, and a proper prefix sorts before the longer string |
| Text.StrLtIrreflexive | utils/excel_utils.py:59 | no string sorts before itself |
| Text.StrLtTransitive | utils/excel_utils.py:59 | string order is transitive |
| Text.StrLtTotal | utils/excel_utils.py:59 | any two distinct strings are ordered one way or the other |
| Helpers.Normalize | utils/helpers.py:13-15 | the normalised text has no whitespace and no comma, and is the input with its whitespace removed and its commas turned into dots |
| Helpers.SafeFloat | utils/helpers.py:10-20 | a value that is neither text nor a number gives 0.0; a number is returned as is; text that normalises to "N/A" in any case, or that the float parser rejects, gives 0.0; otherwise the result is the parse of the normalised text |
| Helpers.Upper | utils/helpers.py:16 | upper-casing keeps the length; a character becomes 'N' exactly when it is 'N' or 'n', 'A' exactly when it is 'A' or 'a', and '/' exactly when it is '/' |
| Helpers.NotAvailable | utils/helpers.py:16 | a normalised text upper-cases to "N/A" exactly when it is one of the four letter cases of N/A |
| Helpers.NormalizeIdempotent | utils/helpers.py:13-15 | normalising twice is normalising once |
| Helpers.SafeFloatIgnoresWhitespace | utils/helpers.py:12-13 | two texts that agree once their whitespace is removed give the same result |
| Helpers.SafeFloatSpaceInside | utils/helpers.py:12-13 | one whitespace character anywhere in the text changes nothing |
| Helpers.SafeFloatSpacedThousands | utils/helpers.py:12-13 | "1 400" and "1400" give the same result |
| Helpers.SafeFloatCommaIsDot | utils/helpers.py:14-15 | turning the commas into dots first changes nothing |
| Helpers.NormalizeCommaIsDot | utils/helpers.py:13-15 | a text with its commas already turned into dots normalises the same as the original |
| Helpers.SafeFloatDecimalComma | utils/helpers.py:14-15 | "12,50" and "12.50" give the same result |
| Helpers.SafeFloatNotAvailable | utils/helpers.py:16-17 | N/A in any letter case, with whitespace anywhere around or inside it, gives 0.0 whatever the parser would say |
| Helpers.NotAvailableSpellings | utils/helpers.py:16 | each of the four letter cases of N/A upper-cases to "N/A" |
| Records.PairLtIrreflexive | utils/excel_utils.py:59 | no pair sorts before itself under the tuple order |
| Records.PairLtTransitive | utils/excel_utils.py:59 | the tuple order on pairs is transitive |
| Records.PairLeTransitive | utils/excel_utils.py:59 | the non-strict tuple order is transitive |
| Records.PairLt | utils/excel_utils.py:59 | the tuple order never relates a pair to itself, is decided by the Praktis Code when the codes differ, and by the Praktiker Code when they are equal |
| Records.PairLtTotal | utils/excel_utils.py:59 | any two distinct pairs are ordered one way or the other |
| Sorting.Insert | utils/excel_utils.py:59 | inserting into a sorted sequence keeps it sorted, adds exactly the one record, keeps lower bounds and absent keys, and keeps the keys distinct when the new key is new |
| Sorting.SortProducts | utils/excel_utils.py:59 | the result is sorted by pair, is a permutation of the input, and keeps distinct keys distinct |
| Sorting.SortedDistinctIsStrict | utils/excel_utils.py:59 | a sorted sequence with distinct keys is strictly increasing |
| Sorting.StrictlySortedUnique | utils/excel_utils.py:59 | two strictly sorted sequences with the same elements are equal, so the sorted output does not depend on the input order |
| ExcelUtils.BuyerMappings | utils/excel_utils.py:27-35 | one buyer mapping per sheet row, in row order, carrying that row's three codes |
| ExcelUtils.UniquePairs | utils/excel_utils.py:36-39 | the unique pairs are duplicate-free and are exactly the pairs of the rows |
| ExcelUtils.UniquePairsSnoc | utils/excel_utils.py:36-38 | a row whose pair was seen adds nothing; a row with a new pair appends that pair at the end |
| ExcelUtils.UniquePairsCount | utils/excel_utils.py:36-39 | there are as many unique pairs as distinct pairs among the rows |
| ExcelUtils.PriceText | utils/excel_utils.py:53-56 | a price prints as "None" exactly when it is missing or is the text "None" |
| ExcelUtils.PriceTextCollision | utils/excel_utils.py:53-56 | two prices print alike exactly when they are equal or are a missing price and the text "None", so the change detector cannot tell those two apart |
| ExcelUtils.Select | utils/excel_utils.py:44-45 | the pairs, taken in completion order, are the pairs each completed future was submitted for |
| ExcelUtils.Retrieve | utils/excel_utils.py:42-58 | the batch succeeds exactly when both fetches succeed for every completed pair; the k-th record merges the k-th completed pair: its two codes, the Praktis name and prices from the Praktis fetch and the Praktiker ones from the Praktiker fetch, each price through `str()`; each pair gets its Praktis fetch and then its Praktiker fetch, one of each per completion |
| ExcelUtils.BatchDistinct | utils/excel_utils.py:42-58 | distinct pairs give records with distinct keys |
| ExcelUtils.BatchCovers | utils/excel_utils.py:42-58 | whatever the completion order, the batch succeeds exactly when every pair's fetches succeed, and then holds the merged record of every pair and nothing else |
| ExcelUtils.CompleteBatchRecords | utils/excel_utils.py:44-58 | when every submitted future completes once, every pair's merged record is in the batch and every record is the merged record of one of the pairs |
| ExcelUtils.BatchContents | utils/excel_utils.py:36-58 | over the unique pairs of a sheet, the batch succeeds exactly when every row's pair can be fetched, and then holds the merged record of every pair of the sheet and nothing else, one record per distinct pair: as many records as distinct pairs, no two with the same pair |
| ExcelUtils.ProcessSheet | utils/excel_utils.py:21-63 | the products are strictly sorted by pair; a failed read or fetch gives two empty lists; otherwise the mappings are one per row and the products are exactly one merged record per distinct pair |
| ExcelUtils.ProcessSheetOrderIndependent | utils/excel_utils.py:42-60 | the result is the same for every completion order of the thread pool |
| ExcelUtils.SelectCovers | utils/excel_utils.py:43-45 | when every future completes once, the completed pairs are duplicate-free and are exactly the submitted pairs |
| ExcelUtils.SelectDistinct | utils/excel_utils.py:43-45 | when every future completes once and the pairs are distinct, no pair completes twice |
| ExcelUtils.SelectElems | utils/excel_utils.py:43-45 | when every future completes once, the completed pairs are exactly the submitted pairs |
| ExcelUtils.FetchesPerUniquePair | utils/excel_utils.py:36-47 | one Praktis future is submitted per distinct pair of the sheet, however often it repeats among the rows; the Praktiker fetches never repeat a pair, whether or not the batch fails; when every fetch succeeds, each distinct pair is fetched exactly once from each catalogue |
| ExcelUtils.PraktikerCalls | utils/excel_utils.py:43-47 | the Praktiker fetches made are the first pairs in completion order, up to the first exception, and all of them when the batch succeeds |
| ExcelUtils.FilterByBuyer | utils/excel_utils.py:198-204 | a record is kept exactly when it is in the input and the buyer is mapped to its pair; an unmapped pair is never kept |
| ExcelUtils.FilterByBuyerAppend | utils/excel_utils.py:198-204 | filtering distributes over concatenation, so the kept records stay in input order |
| DbFunctions.Classify | db/db_functions.py:44-86 | a record is new exactly when its Praktis Code is not stored; it is a price change exactly when the code is stored and one of the four price strings differs; the change carries both codes and the old and new regular prices |
| DbFunctions.Entry | db/db_functions.py:65-86 | a record adds at most one entry: a new item exactly when it was inserted, carrying its two codes, and a price change exactly when its prices changed |
| DbFunctions.Write | db/db_functions.py:47-64 | the record's code gains or keeps a row holding the record and the write's timestamp; no other row changes |
| DbFunctions.Loop | db/db_functions.py:34-115 | the loop fails exactly when some record's read or write raises; it reports at most one entry per record, and a new item's code was not stored before; when nothing raises, the stored codes are the old ones plus the batch's, other rows are untouched, and each code holds the last record that carried it, stamped with that record's time |
| DbFunctions.UpsertData | db/db_functions.py:12-115 | a raising read or write rolls the store back; otherwise the stored codes are the old ones plus the batch's, other rows are untouched, and each code holds the last record that carried it with that record's time; the loop's changes, at most one per record, are returned either way |
| DbFunctions.UpsertDataToDb | db/db_functions.py:12-115 | when the connection or the table creation before the loop fails, no change is reported and nothing is written; the store changes only when the loop ran with no raising statement; at most one entry per record, and a new item's code was not stored before |
| DbFunctions.AgainstStoreFrame | db/db_functions.py:44-46 | writing a code no record carries changes no record's classification |
| DbFunctions.LoopAgainstStore | db/db_functions.py:34-109 | with distinct Praktis Codes and no raising read or write, each record is judged against the store as it was before the batch |
| DbFunctions.AgainstStoreQuiet | db/db_functions.py:46-78 | a store that already holds every record of the batch reports no new item and no price change |
| DbFunctions.RerunReportsNothing | db/db_functions.py:46-78 | running a batch with distinct Praktis Codes a second time, on the store its first run left, reports nothing |
| DbFunctions.LaterRecordSeesEarlierWrite | db/db_functions.py:20-109 | the table is keyed by the Praktis Code alone: of two records sharing it, the second is judged against the first's write, so the first run reports a new item and a price change, and a rerun reports two price changes |
| DbFunctions.SharedCodeFirstRun | db/db_functions.py:20-109 | of two records with one Praktis Code that is not yet stored, the first is a new item, the second a price change against it, and the row ends holding the second |
| DbFunctions.SharedCodeRerun | db/db_functions.py:44-86 | with the row holding the second record, a rerun reports both records as price changes |
| DbFunctions.TwoRecords | db/db_functions.py:34-109 | a batch of two accepted records classifies the second against the store the first one's write left |
| DbFunctions.RefusedWriteKeepsPriceChange | db/db_functions.py:79-115 | an INSERT or UPDATE that raises leaves the store as it was and reports no new item, but keeps the price-change entry when the stored prices differ |
| DbFunctions.FailedReadReportsNothing | db/db_functions.py:44-45 | a SELECT or `fetchone()` that raises leaves the store as it was and reports nothing for the record, whatever its prices |
| DbFunctions.StopsAtFirstFault | db/db_functions.py:34-115 | a batch whose first raising record is record k reports what the records before it report, followed by record k's price change only when its UPDATE raised and the prices differ from those the earlier records left |
| DbFunctions.InsertMissing | db/db_functions.py:140-149 | inserting the absent mappings gives the old table plus the mappings; it cannot fail when no absent mapping is refused, and a table that already has every mapping is left as is |
| DbFunctions.UpsertProductBuyers | db/db_functions.py:123-153 | the table only grows, and only by the given mappings; with no refused insert it becomes the old table plus the mappings |
| DbFunctions.UpsertProductBuyersIdempotent | db/db_functions.py:140-149 | repeating the upsert on its own result changes nothing |
| DbFunctions.BuyersIn | db/db_functions.py:169-171 | the buyers collected for a pair are exactly those of the rows with that pair |
| DbFunctions.BuyersInSnoc | db/db_functions.py:169-171 | a further row extends only its own pair's buyer list, at the end |
| DbFunctions.BuyersInDistinct | db/db_functions.py:169-171 | duplicate-free rows give duplicate-free buyer lists |
| DbFunctions.Group | db/db_functions.py:161-171 | each pair's buyer list is the row-ordered list of its rows' buyers; a pair without rows has no entry |
| DbFunctions.GetProductBuyers | db/db_functions.py:161-180 | a failed scan gives an empty dictionary; otherwise a buyer is listed for a pair exactly when the scan holds that row, and no key has an empty list |
| DbFunctions.ScanOfTable | db/db_functions.py:131-134 | for a scan that returns each row of the table once, a buyer is listed exactly when the table holds the triple, and no buyer is listed twice for one pair |
| Dispatch.Occurrences | main.py:43-49 | a buyer is counted at least once exactly when it is listed |
| Dispatch.Copies | main.py:43-49 | the copies of a change are that change alone, as many times as asked |
| Dispatch.DistinctOccurrences | main.py:43-49 | a duplicate-free buyer list lists each buyer at most once |
| Dispatch.Routed | main.py:40-51 | a change is in a buyer's view exactly when it is in the global list and the buyer is mapped to its pair |
| Dispatch.RoutedIsFiltered | main.py:40-51 | when no pair lists a buyer twice, a buyer's view is the order-preserving filter of the global list |
| Dispatch.AddPrice | main.py:43-45 | the buyers of a price change all get an entry, and no other entry appears |
| Dispatch.AddNew | main.py:49-51 | the buyers of a new item all get an entry, and no other entry appears |
| Dispatch.AddPriceAt | main.py:43-45 | a price change is appended to a buyer's price changes once per listing of that buyer; its new items are untouched |
| Dispatch.AddNewAt | main.py:49-51 | a new item is appended to a buyer's new items once per listing of that buyer; its price changes are untouched |
| Dispatch.RoutePrices | main.py:40-45 | after the price loop the buyers with an entry are the earlier ones plus every buyer mapped to the pair of some price change |
| Dispatch.RouteNew | main.py:46-51 | after the new-item loop the buyers with an entry are the earlier ones plus every buyer mapped to the pair of some new item |
| Dispatch.GroupUpdates | main.py:39-51 | `buyer_updates` has an entry exactly for the buyers mapped to the pair of some change |
| Dispatch.RoutePricesAt | main.py:40-45 | after the price loop, a buyer's price changes are its view of the global list, in global order |
| Dispatch.RoutePricesKeys | main.py:40-45 | after the price loop, a buyer has an entry exactly when some price change reached it |
| Dispatch.RouteNewAt | main.py:46-51 | after the new-item loop, a buyer's new items are its view of the global list, in global order |
| Dispatch.RouteNewKeys | main.py:46-51 | after the new-item loop, a buyer has an entry exactly when some change reached it |
| Dispatch.GroupUpdatesSpec | main.py:39-55 | a buyer has an entry exactly when some change reached it; its entry is its views of both global lists; no entry is empty |
| Dispatch.GroupUpdatesAt | main.py:39-51 | one buyer has an entry exactly when some change reached it, and that entry is its views of both global lists |
| Dispatch.ChangesReachMappedBuyers | main.py:39-51 | every change reaches every buyer mapped to its pair and no other buyer |
| Dispatch.UnmappedReachesNobody | main.py:42-48 | a change to a pair that no buyer is mapped to reaches nobody |
| Dispatch.FolderName | main.py:63-67 | the folder name ends in the Buyer Code; it is the Buyer Code alone exactly when the name has fewer than two words; it has no whitespace when the code has none |
| Dispatch.FolderOfName | main.py:63-65 | "First Last ..." gives First_Last_Code, whatever whitespace precedes the first word or separates the first two, and whatever follows the second word after whitespace |
| Dispatch.FolderOfOneWord | main.py:63-67 | a one-word or empty name gives the Buyer Code alone |
| Dispatch.FileName | main.py:72-73 | the file name is the prefix product_details_, then the name with each space (and only the space character) turned into `_`, then `_`, the time stamp and .xlsx; it has no space when the time stamp has none |
| Dispatch.FileNameSpaceIsUnderscore | main.py:73 | names that differ only by a space against an underscore share a file name |
| Dispatch.SubjectDeterminesName | main.py:79 | two buyers get the same subject exactly when their names are equal |
| Dispatch.DispatchOne | main.py:55-83 | the outcome is "No updates" exactly when both lists are empty; a buyer with updates and no email entry is skipped; a report goes to the buyer's email and carries the buyer's updates and exactly the product records mapped to the buyer |
| Dispatch.DispatchAll | main.py:54-83 | there is one outcome per entry of the buyer updates; an entry with at least one change never gives "No updates"; it is sent exactly when it has a change and the buyer has an email entry, and then goes to that email with that entry's updates |
| Dispatch.FanOut | main.py:39-83 | a buyer gets a report exactly when some change reached it and it has an email entry, and is skipped exactly when it has none; "No updates" never happens; each report carries the buyer's views of the changes and its filtered product data |
| Dispatch.ReportsFromTable | main.py:30-56 | with the dictionary read from the buyer table, each report's changes are exactly the changes to pairs mapped to its buyer, each once, in global order |

## Left out

- HTTP fetching, retries, the user agent and HTML parsing. A fetch is a
  parameter that either returns a name and two optional prices or fails.
  A missing price prints as "None".
- The thread pool runs in parallel in the program. Here it is sequential:
  the order in which the Praktis futures complete is a parameter, and each
  Praktiker fetch happens right after its Praktis future completes. A
  failed fetch ends the whole sheet with two empty lists.
- Reading the spreadsheet with pandas and its pre-sort by the first
  column. The rows are a parameter, already converted to text, and hold
  the rows after `df.sort_values`. The buyer mappings and the first-seen
  order of the unique pairs keep that order; only the order of the
  products does not depend on it. How pandas prints numbers and empty
  cells as text is left out.
- Connecting to the database, creating tables, commit and close. Whether
  the connection and the table creation succeed is a parameter of
  `upsert_data_to_db`; whether each record's read or write raises is a
  parameter, and so is each
  reading of `datetime.now()`. A failure before the loop in
  `upsert_product_buyers` acts like a refused insert: the table stays as
  it was.
- DbFunctions: keys compare as exact strings. SQL Server's NVARCHAR `=`
  and primary keys ignore trailing spaces and follow the column collation,
  which is often case-insensitive. Under such a collation, codes "1" and
  "1 " share one ProductDetails row, and a ProductBuyers triple that differs
  from a stored one only that way is not inserted; here they are distinct
  keys. So Classify, RerunReportsNothing, UpsertProductBuyers and
  GetProductBuyers hold for codes that are equal only when they are equal
  as strings.
- Helpers.SafeFloat: Python's `float()` grammar is a parameter (a partial
  parse). Only ASCII letters are upper-cased. A number is returned
  exactly; Python rounds it to a double, and an int too large for one
  raises OverflowError, which gives 0.0.
- get_buyer_emails reading the BuyerEmails table is not modelled. The
  email directory is a parameter, and each entry has an email and a name.
  A buyer whose name is NULL is not modelled.
- Writing the Excel file, the HTML body of the mail, sending the mail,
  creating the folder, the base output directory and the configuration.
  A report records what these steps would be given.
- Dispatch.FanOut: the loop over buyers has no `try`. When creating the
  folder or writing the Excel file raises, for instance for a buyer name
  holding `/`, the run stops and the buyers not yet visited get nothing.
  Here every step succeeds, so "a buyer gets a report exactly when" holds
  only when those steps do.
- Dispatch.DispatchAll: the program visits buyers in dictionary insertion
  order. Here the outcomes are a map, so that order is not modelled.
- Dispatch.FileName: the time stamp text (`%Y-%m-%d_%H-%M-%S`) comes from
  the clock. Here it is a parameter per buyer.

=== FILE: db_functions.dfy ===
/** The database side of the run over an abstract store: the change
    detector of `upsert_data_to_db`, the idempotent insert of
    `upsert_product_buyers` and the grouping of `get_product_buyers`. The
    connection, the table DDL, commit and close are not modelled; where a
    record's statements raise is the parameter `faults` (and, for the buyer
    table, `rejects`). */
module DbFunctions {
  import opened Wrappers
  import opened Seqs
  import opened Records

  /** A reading of `datetime.now()`, opaque to the model. */
  datatype Timestamp = Timestamp(ticks: int)

  /** One row of ProductDetails: the product's eight fields and RunTimestamp. */
  datatype StoredRow = StoredRow(product: Product, stamp: Timestamp)

  /** ProductDetails, whose primary key is the Praktis Code alone. */
  type Store = map<string, StoredRow>

  /** An entry of `new_items`. */
  datatype NewItem = NewItem(pair: Pair)

  /** An entry of `price_changes`: both codes, and the old and new regular
      price of each side. Promo prices can trigger the entry but are not in it. */
  datatype PriceChange = PriceChange(
    pair: Pair,
    praktisOld: string, praktisNew: string,
    praktikerOld: string, praktikerNew: string)

  /** The `changes` dictionary. */
  datatype Changes = Changes(newItems: seq<NewItem>, priceChanges: seq<PriceChange>)

  /** The four compared fields, in the order the SELECT before the comparison reads them. */
  function PriceFields(x: Product): seq<string> {
    [x.praktis.regular, x.praktiker.regular, x.praktis.promo, x.praktiker.promo]
  }

  /** Where the statements of one record raise: not at all, at the SELECT
      or `fetchone()` before the comparison, or at the INSERT or UPDATE after it. */
  datatype Fault = Clean | ReadFails | WriteFails

  /** How one record meets the store. */
  datatype Verdict = Inserted | Changed(change: PriceChange) | Unchanged

  /** The body of the record loop: look the Praktis Code up; absent means a new item;
      present means a price change when any of the four price strings
      differs, compared as strings. */
  function Classify(store: Store, x: Product): (v: Verdict)
    ensures v.Inserted? <==> x.pair.praktis !in store
    ensures v.Changed? <==> x.pair.praktis in store && PriceFields(store[x.pair.praktis].product) != PriceFields(x)
    ensures v.Changed? ==>
      var prior := store[x.pair.praktis].product;
      v.change == PriceChange(x.pair, prior.praktis.regular, x.praktis.regular, prior.praktiker.regular, x.praktiker.regular)
  {
    var code := x.pair.praktis;
    if code !in store then Inserted
    else
      var prior := store[code].product;
      if || prior.praktis.regular != x.praktis.regular
         || prior.praktiker.regular != x.praktiker.regular
         || prior.praktis.promo != x.praktis.promo
         || prior.praktiker.promo != x.praktiker.promo
      then
        Changed(PriceChange(x.pair, prior.praktis.regular, x.praktis.regular, prior.praktiker.regular, x.praktiker.regular))
      else
        Unchanged
  }

  /** The INSERT of a new code or the UPDATE of a stored one: either way the row of
      the Praktis Code becomes the record with the current time. */
  function Write(store: Store, x: Product, now: Timestamp): (s: Store)
    ensures s.Keys == store.Keys + {x.pair.praktis}
    ensures s[x.pair.praktis] == StoredRow(x, now)
    ensures forall c :: c in store && c != x.pair.praktis ==> s[c] == store[c]
  {
    store[x.pair.praktis := StoredRow(x, now)]
  }

  /** The entry a verdict appends to `changes`. */
  function Entry(v: Verdict, x: Product): (e: Changes)
    ensures |e.newItems| + |e.priceChanges| <= 1
    ensures e.newItems != [] <==> v.Inserted?
    ensures e.priceChanges != [] <==> v.Changed?
    ensures v.Inserted? ==> e.newItems == [NewItem(x.pair)]
    ensures v.Changed? ==> e.priceChanges == [v.change]
  {
    match v
    case Inserted => Changes([NewItem(x.pair)], [])
    case Changed(c) => Changes([], [c])
    case Unchanged => Changes([], [])
  }

  /** What a record whose statements raise adds to `changes`: its price
      change when the UPDATE raised, nothing otherwise. */
  function Stopped(v: Verdict, f: Fault): (e: Changes)
    ensures e.newItems == []
    ensures e.priceChanges != [] <==> v.Changed? && f.WriteFails?
  {
    if v.Changed? && f.WriteFails? then Changes([], [v.change]) else Changes([], [])
  }

  function Concat(a: Changes, b: Changes): Changes {
    Changes(a.newItems + b.newItems, a.priceChanges + b.priceChanges)
  }

  /** The codes of the records. */
  function Codes(data: seq<Product>): set<string> {
    set x | x in data :: x.pair.praktis
  }

  predicate DistinctCodes(data: seq<Product>) {
    forall i, j :: 0 <= i < j < |data| ==> data[i].pair.praktis != data[j].pair.praktis
  }

  /** The loop's state when it stops: the changes so far, the store as the
      rows left it, and whether a statement raised. */
  datatype Pass = Pass(changes: Changes, store: Store, failed: bool)

  /** Record `j` is the last of `data` with its Praktis Code. */
  predicate LastWith(data: seq<Product>, j: int)
    requires 0 <= j < |data|
  {
    forall l :: j < l < |data| ==> data[l].pair.praktis != data[j].pair.praktis
  }

  /** The loop over the records, on `data`, the first of which is record `i` of the
      batch; `clock(i)` is `datetime.now()` at record `i`. A raising
      statement stops the loop there. A failed read leaves the record no
      entry; a failed write keeps a price-change entry (appended before the
      UPDATE runs) but not a new-item entry (appended after the INSERT). */
  function Loop(data: seq<Product>, store: Store, i: nat, clock: nat -> Timestamp, faults: Product -> Fault): (r: Pass)
    ensures r.failed <==> exists x :: x in data && !faults(x).Clean?
    ensures |r.changes.newItems| + |r.changes.priceChanges| <= |data|
    ensures forall n :: n in r.changes.newItems ==> n.pair.praktis !in store
    ensures !r.failed ==> r.store.Keys == store.Keys + Codes(data)
    ensures !r.failed ==> forall c :: c in store && c !in Codes(data) ==> r.store[c] == store[c]
    ensures !r.failed ==> forall j :: 0 <= j < |data| && LastWith(data, j) ==>
      r.store[data[j].pair.praktis] == StoredRow(data[j], clock(i + j))
    decreases |data|
  {
    if data == [] then Pass(Changes([], []), store, false)
    else
      var x := data[0];
      var v := Classify(store, x);
      if !faults(x).Clean? then
        Pass(Stopped(v, faults(x)), store, true)
      else
        var s := Write(store, x, clock(i));
        var rest := Loop(data[1..], s, i + 1, clock, faults);
        HeadAndTail(data);
        var out := Pass(Concat(Entry(v, x), rest.changes), rest.store, rest.failed);
        if rest.failed then out
        else
          KeysStep(x, data, store, s, rest.store, clock(i));
          LastWriteStep(data, data[1..], i, clock, s, rest.store);
          out
  }

  /** A batch is its first record followed by the rest. */
  lemma HeadAndTail(data: seq<Product>)
    requires data != []
    ensures forall y :: y in data <==> y == data[0] || y in data[1..]
    ensures Codes(data) == {data[0].pair.praktis} + Codes(data[1..])
  {
    assert data == [data[0]] + data[1..];
  }

  /** The keys and the untouched rows of `Loop`, from the rest of the batch
      to the whole of it. */
  lemma KeysStep(x: Product, data: seq<Product>, store: Store, s: Store, after: Store, now: Timestamp)
    requires data != [] && x == data[0] && s == Write(store, x, now)
    requires Codes(data) == {x.pair.praktis} + Codes(data[1..])
    requires after.Keys == s.Keys + Codes(data[1..])
    requires forall c :: c in s && c !in Codes(data[1..]) ==> after[c] == s[c]
    ensures after.Keys == store.Keys + Codes(data)
    ensures forall c :: c in store && c !in Codes(data) ==> after[c] == store[c]
  {
  }

  /** The last-write-wins fact of `Loop`, from the rest of the batch to the
      whole of it. */
  lemma LastWriteStep(data: seq<Product>, tail: seq<Product>, i: nat, clock: nat -> Timestamp, s: Store, after: Store)
    requires data != [] && tail == data[1..]
    requires data[0].pair.praktis in s && s[data[0].pair.praktis] == StoredRow(data[0], clock(i))
    requires after.Keys == s.Keys + Codes(tail)
    requires forall c :: c in s && c !in Codes(tail) ==> after[c] == s[c]
    requires forall j :: 0 <= j < |tail| && LastWith(tail, j) ==>
      after[tail[j].pair.praktis] == StoredRow(tail[j], clock(i + 1 + j))
    ensures forall j :: 0 <= j < |data| && LastWith(data, j) ==>
      data[j].pair.praktis in after && after[data[j].pair.praktis] == StoredRow(data[j], clock(i + j))
  {
    forall j | 0 <= j < |data| && LastWith(data, j)
      ensures data[j].pair.praktis in after && after[data[j].pair.praktis] == StoredRow(data[j], clock(i + j))
    {
      if j == 0 {
        HeadNotRepeated(data, tail);
      } else {
        assert tail[j - 1] == data[j];
        assert tail[j - 1] in tail;
        LastWithShift(data, tail, j);
      }
    }
  }

  lemma HeadNotRepeated(data: seq<Product>, tail: seq<Product>)
    requires data != [] && tail == data[1..] && LastWith(data, 0)
    ensures data[0].pair.praktis !in Codes(tail)
  {
    forall y | y in tail
      ensures y.pair.praktis != data[0].pair.praktis
    {
      var l :| 0 <= l < |tail| && tail[l] == y;
      assert data[l + 1] == y;
    }
  }

  lemma LastWithShift(data: seq<Product>, tail: seq<Product>, j: int)
    requires 0 < j < |data| && tail == data[1..] && LastWith(data, j)
    ensures LastWith(tail, j - 1)
  {
    forall l | j - 1 < l < |tail|
      ensures tail[l].pair.praktis != tail[j - 1].pair.praktis
    {
      assert tail[l] == data[l + 1];
    }
  }

  /** `upsert_data_to_db` from the loop on: the changes are returned either
      way; the store keeps the rows only when the loop ran to the `conn.commit()`
      after it, and is rolled back when a read or write raised. */
  datatype Upserted = Upserted(changes: Changes, store: Store)

  function UpsertData(data: seq<Product>, store: Store, clock: nat -> Timestamp, faults: Product -> Fault): (r: Upserted)
    ensures (exists x :: x in data && !faults(x).Clean?) ==> r.store == store
    ensures (forall x :: x in data ==> faults(x).Clean?) ==>
      && r.store.Keys == store.Keys + Codes(data)
      && (forall c :: c in store && c !in Codes(data) ==> r.store[c] == store[c])
    ensures forall n :: n in r.changes.newItems ==> n.pair.praktis !in store
    ensures |r.changes.newItems| + |r.changes.priceChanges| <= |data|
    ensures r.changes == Loop(data, store, 0, clock, faults).changes
    ensures (forall x :: x in data ==> faults(x).Clean?) ==>
      forall j :: 0 <= j < |data| && LastWith(data, j) ==> r.store[data[j].pair.praktis] == StoredRow(data[j], clock(j))
  {
    var pass := Loop(data, store, 0, clock, faults);
    Upserted(pass.changes, if pass.failed then store else pass.store)
  }

  /** `upsert_data_to_db` as a whole: when `pyodbc.connect` or the CREATE
      TABLE before the loop raises, no change is reported and nothing is
      written; otherwise the loop runs. */
  function UpsertDataToDb(connects: bool, data: seq<Product>, store: Store, clock: nat -> Timestamp, faults: Product -> Fault): (r: Upserted)
    ensures !connects ==> r == Upserted(Changes([], []), store)
    ensures r.store != store ==> connects && forall x :: x in data ==> faults(x).Clean?
    ensures |r.changes.newItems| + |r.changes.priceChanges| <= |data|
    ensures forall n :: n in r.changes.newItems ==> n.pair.praktis !in store
    ensures connects ==> r == UpsertData(data, store, clock, faults)
  {
    if connects then UpsertData(data, store, clock, faults) else Upserted(Changes([], []), store)
  }

  /** What the batch reports when every record is judged against the store
      as it was before the run. */
  function AgainstStore(data: seq<Product>, store: Store): Changes {
    if data == [] then Changes([], [])
    else Concat(Entry(Classify(store, data[0]), data[0]), AgainstStore(data[1..], store))
  }

  /** Writing a code that no record of `data` carries changes nothing in how
      those records are judged. */
  lemma {:induction false} AgainstStoreFrame(data: seq<Product>, store: Store, y: Product, now: Timestamp)
    requires y.pair.praktis !in Codes(data)
    ensures AgainstStore(data, Write(store, y, now)) == AgainstStore(data, store)
    decreases |data|
  {
    if data != [] {
      assert data[0] in data;
      assert Codes(data[1..]) <= Codes(data) by {
        forall x | x in data[1..] ensures x in data { }
      }
      AgainstStoreFrame(data[1..], store, y, now);
    }
  }

  /** With distinct Praktis Codes and nothing raising, the batch reports
      exactly what judging each record against the prior store reports: no
      record sees another's write. */
  lemma {:induction false} LoopAgainstStore(data: seq<Product>, store: Store, i: nat, clock: nat -> Timestamp, faults: Product -> Fault)
    requires DistinctCodes(data)
    requires forall x :: x in data ==> faults(x).Clean?
    ensures Loop(data, store, i, clock, faults).changes == AgainstStore(data, store)
    decreases |data|
  {
    if data != [] {
      var x := data[0];
      var tail := data[1..];
      assert x in data;
      assert DistinctCodes(tail) by {
        forall a, b | 0 <= a < b < |tail| ensures tail[a].pair.praktis != tail[b].pair.praktis {
          assert tail[a] == data[a + 1] && tail[b] == data[b + 1];
        }
      }
      assert x.pair.praktis !in Codes(tail) by {
        forall y | y in tail ensures y.pair.praktis != x.pair.praktis {
          var l :| 0 <= l < |tail| && tail[l] == y;
          assert data[l + 1] == y;
        }
      }
      LoopAgainstStore(tail, Write(store, x, clock(i)), i + 1, clock, faults);
      AgainstStoreFrame(tail, store, x, clock(i));
    }
  }

  /** A store that already holds every record reports nothing. */
  lemma {:induction false} AgainstStoreQuiet(data: seq<Product>, store: Store)
    requires forall x :: x in data ==> x.pair.praktis in store && store[x.pair.praktis].product == x
    ensures AgainstStore(data, store) == Changes([], [])
    decreases |data|
  {
    if data != [] {
      assert data[0] in data;
      AgainstStoreQuiet(data[1..], store);
    }
  }

  /** Rerunning a batch with distinct Praktis Codes on the store its first
      run committed reports no new item and no price change. */
  lemma RerunReportsNothing(data: seq<Product>, store: Store, clock: nat -> Timestamp, later: nat -> Timestamp, faults: Product -> Fault)
    requires DistinctCodes(data)
    requires forall x :: x in data ==> faults(x).Clean?
    ensures UpsertData(data, UpsertData(data, store, clock, faults).store, later, faults).changes == Changes([], [])
  {
    var s := UpsertData(data, store, clock, faults).store;
    forall x | x in data
      ensures x.pair.praktis in s && s[x.pair.praktis].product == x
    {
      var j :| 0 <= j < |data| && data[j] == x;
      assert LastWith(data, j);
      assert x.pair.praktis in Codes(data);
    }
    AgainstStoreQuiet(data, s);
    LoopAgainstStore(data, s, 0, later, faults);
  }

  /** The store is keyed by the Praktis Code alone: a second record with the
      same Praktis Code but another Praktiker Code is compared with the
      first one's write, so a batch holding both reports the first as new
      and the second as a price change against it, and every rerun of that
      batch reports both as price changes. */
  lemma LaterRecordSeesEarlierWrite(a: Product, b: Product, store: Store, clock: nat -> Timestamp, later: nat -> Timestamp, faults: Product -> Fault)
    requires a.pair.praktis == b.pair.praktis && a.pair.praktis !in store
    requires PriceFields(a) != PriceFields(b)
    requires faults(a).Clean? && faults(b).Clean?
    ensures var first := UpsertData([a, b], store, clock, faults);
      && first.changes == Changes([NewItem(a.pair)],
           [PriceChange(b.pair, a.praktis.regular, b.praktis.regular, a.praktiker.regular, b.praktiker.regular)])
      && UpsertData([a, b], first.store, later, faults).changes == Changes([],
           [PriceChange(a.pair, b.praktis.regular, a.praktis.regular, b.praktiker.regular, a.praktiker.regular),
            PriceChange(b.pair, a.praktis.regular, b.praktis.regular, a.praktiker.regular, b.praktiker.regular)])
  {
    SharedCodeFirstRun(a, b, store, clock, faults);
    SharedCodeRerun(a, b, UpsertData([a, b], store, clock, faults).store, later, faults);
  }

  /** The first run of `LaterRecordSeesEarlierWrite`. */
  lemma SharedCodeFirstRun(a: Product, b: Product, store: Store, clock: nat -> Timestamp, faults: Product -> Fault)
    requires a.pair.praktis == b.pair.praktis && a.pair.praktis !in store
    requires PriceFields(a) != PriceFields(b)
    requires faults(a).Clean? && faults(b).Clean?
    ensures var first := UpsertData([a, b], store, clock, faults);
      && first.changes == Changes([NewItem(a.pair)],
           [PriceChange(b.pair, a.praktis.regular, b.praktis.regular, a.praktiker.regular, b.praktiker.regular)])
      && a.pair.praktis in first.store && first.store[a.pair.praktis].product == b
  {
    var s1 := Write(store, a, clock(0));
    var c1 := PriceChange(b.pair, a.praktis.regular, b.praktis.regular, a.praktiker.regular, b.praktiker.regular);
    TwoRecords(a, b, store, clock, faults);
    assert Entry(Classify(store, a), a) == Changes([NewItem(a.pair)], []);
    assert Entry(Classify(s1, b), b) == Changes([], [c1]);
  }

  /** The rerun of `LaterRecordSeesEarlierWrite`, on a store whose row for
      the shared code holds `b`. */
  lemma SharedCodeRerun(a: Product, b: Product, s2: Store, later: nat -> Timestamp, faults: Product -> Fault)
    requires a.pair.praktis == b.pair.praktis && a.pair.praktis in s2 && s2[a.pair.praktis].product == b
    requires PriceFields(a) != PriceFields(b)
    requires faults(a).Clean? && faults(b).Clean?
    ensures UpsertData([a, b], s2, later, faults).changes == Changes([],
      [PriceChange(a.pair, b.praktis.regular, a.praktis.regular, b.praktiker.regular, a.praktiker.regular),
       PriceChange(b.pair, a.praktis.regular, b.praktis.regular, a.praktiker.regular, b.praktiker.regular)])
  {
    var c1 := PriceChange(b.pair, a.praktis.regular, b.praktis.regular, a.praktiker.regular, b.praktiker.regular);
    var c0 := PriceChange(a.pair, b.praktis.regular, a.praktis.regular, b.praktiker.regular, a.praktiker.regular);
    TwoRecords(a, b, s2, later, faults);
    assert Entry(Classify(s2, a), a) == Changes([], [c0]);
    assert Entry(Classify(Write(s2, a, later(0)), b), b) == Changes([], [c1]);
  }

  /** `upsert_data_to_db` over a batch of two accepted records. */
  lemma TwoRecords(a: Product, b: Product, store: Store, clock: nat -> Timestamp, faults: Product -> Fault)
    requires faults(a).Clean? && faults(b).Clean?
    ensures var s1 := Write(store, a, clock(0));
      UpsertData([a, b], store, clock, faults)
        == Upserted(Concat(Entry(Classify(store, a), a), Entry(Classify(s1, b), b)), Write(s1, b, clock(1)))
  {
    assert [a, b][1..] == [b];
    assert [b][1..] == [];
    var s1 := Write(store, a, clock(0));
    var e := Entry(Classify(s1, b), b);
    assert Loop([b], s1, 1, clock, faults) == Pass(Concat(e, Changes([], [])), Write(s1, b, clock(1)), false);
    assert Concat(e, Changes([], [])) == e;
  }


  /** A raising INSERT or UPDATE stops the batch and rolls the store back; the changes
      reported so far are still returned, including a price change of the
      record itself, but not a new item for it. */
  lemma RefusedWriteKeepsPriceChange(x: Product, store: Store, clock: nat -> Timestamp, faults: Product -> Fault)
    requires faults(x).WriteFails?
    ensures var r := UpsertData([x], store, clock, faults);
      && r.store == store
      && r.changes.newItems == []
      && (r.changes.priceChanges != [] <==> x.pair.praktis in store && PriceFields(store[x.pair.praktis].product) != PriceFields(x))
  {
  }

  /** A read that raises stops the batch before the record is compared:
      the record adds nothing and the store is rolled back. */
  lemma FailedReadReportsNothing(x: Product, store: Store, clock: nat -> Timestamp, faults: Product -> Fault)
    requires faults(x).ReadFails?
    ensures UpsertData([x], store, clock, faults) == Upserted(Changes([], []), store)
  {
  }

  /** One turn of `Loop` over a record whose statements all succeed: its
      entry, then what the rest of the batch reports on the store its write left. */
  lemma LoopCleanHead(data: seq<Product>, store: Store, i: nat, clock: nat -> Timestamp, faults: Product -> Fault)
    requires data != [] && faults(data[0]).Clean?
    ensures var rest := Loop(data[1..], Write(store, data[0], clock(i)), i + 1, clock, faults);
      && Loop(data, store, i, clock, faults).changes == Concat(Entry(Classify(store, data[0]), data[0]), rest.changes)
      && (!rest.failed ==> Loop(data, store, i, clock, faults).store == rest.store)
  {
  }

  /** A batch whose first raising record is record `k` reports what the
      records before it report, then that record's price change only when
      its UPDATE raised: the `except` returns `changes` as the loop left it. */
  lemma {:induction false} StopsAtFirstFault(data: seq<Product>, store: Store, i: nat, clock: nat -> Timestamp, faults: Product -> Fault, k: nat)
    requires k < |data| && !faults(data[k]).Clean?
    requires forall j :: 0 <= j < k ==> faults(data[j]).Clean?
    ensures var before := Loop(data[..k], store, i, clock, faults);
      Loop(data, store, i, clock, faults).changes
        == Concat(before.changes, Stopped(Classify(before.store, data[k]), faults(data[k])))
    decreases k
  {
    if k == 0 {
      assert data[..0] == [];
      var e := Stopped(Classify(store, data[0]), faults(data[0]));
      assert Concat(Changes([], []), e) == e;
    } else {
      var x := data[0];
      var s := Write(store, x, clock(i));
      var tail := data[1..];
      var prefix := data[..k];
      CleanBefore(data, k, faults);
      StopsAtFirstFault(tail, s, i + 1, clock, faults, k - 1);
      var rest := Loop(tail[..k - 1], s, i + 1, clock, faults);
      assert !rest.failed;
      var e := Entry(Classify(store, x), x);
      var last := Stopped(Classify(rest.store, data[k]), faults(data[k]));
      var whole := Loop(data, store, i, clock, faults);
      var before := Loop(prefix, store, i, clock, faults);
      assert whole.changes == Concat(e, Concat(rest.changes, last)) by {
        LoopCleanHead(data, store, i, clock, faults);
      }
      assert before.changes == Concat(e, rest.changes) && before.store == rest.store by {
        LoopCleanHead(prefix, store, i, clock, faults);
      }
      ConcatAssoc(e, rest.changes, last);
    }
  }

  /** The records before the first raising one, seen from the second record on. */
  lemma CleanBefore(data: seq<Product>, k: nat, faults: Product -> Fault)
    requires 0 < k < |data|
    requires forall j :: 0 <= j < k ==> faults(data[j]).Clean?
    ensures faults(data[0]).Clean? && data[1..][k - 1] == data[k]
    ensures forall j :: 0 <= j < k - 1 ==> faults(data[1..][j]).Clean?
    ensures forall y :: y in data[1..][..k - 1] ==> faults(y).Clean?
    ensures data[..k][0] == data[0] && data[..k][1..] == data[1..][..k - 1]
  {
    var tail := data[1..];
    forall j | 0 <= j < k - 1 ensures faults(tail[j]).Clean? {
      assert tail[j] == data[j + 1];
    }
    forall y | y in tail[..k - 1] ensures faults(y).Clean? {
      var j :| 0 <= j < k - 1 && tail[..k - 1][j] == y;
      assert tail[j] == y;
    }
  }

  lemma ConcatAssoc(a: Changes, b: Changes, c: Changes)
    ensures Concat(a, Concat(b, c)) == Concat(Concat(a, b), c)
  {
  }

  /** ProductBuyers, whose primary key is the whole triple: a set. */
  type BuyerTable = set<BuyerMapping>

  /** The loop of `upsert_product_buyers`: each mapping is inserted only when the table lacks it;
      an INSERT the database refuses raises and ends the loop (`None`). */
  function InsertMissing(table: BuyerTable, mappings: seq<BuyerMapping>, rejects: BuyerMapping -> bool): (r: Option<BuyerTable>)
    ensures r.Some? ==> r.value == table + Elems(mappings)
    ensures (forall m :: m in mappings ==> m in table || !rejects(m)) ==> r.Some?
    ensures (forall m :: m in mappings ==> m in table) ==> r == Some(table)
    decreases |mappings|
  {
    if mappings == [] then Some(table)
    else
      var m := mappings[0];
      assert Elems(mappings) == {m} + Elems(mappings[1..]);
      assert forall x :: x in mappings[1..] ==> x in mappings;
      if m in table then InsertMissing(table, mappings[1..], rejects)
      else if rejects(m) then None
      else InsertMissing(table + {m}, mappings[1..], rejects)
  }

  /** `upsert_product_buyers`: the inserts are committed together by the
      `conn.commit()` after the loop; when one raises, nothing is committed and the table is as before. */
  function UpsertProductBuyers(table: BuyerTable, mappings: seq<BuyerMapping>, rejects: BuyerMapping -> bool): (r: BuyerTable)
    ensures table <= r <= table + Elems(mappings)
    ensures (forall m :: m in mappings ==> !rejects(m)) ==> r == table + Elems(mappings)
  {
    match InsertMissing(table, mappings, rejects)
    case Some(t) => t
    case None => table
  }

  /** Once a run has stored every mapping, running it again changes nothing,
      whatever the database would refuse: no INSERT is attempted. */
  lemma UpsertProductBuyersIdempotent(table: BuyerTable, mappings: seq<BuyerMapping>, rejects: BuyerMapping -> bool, again: BuyerMapping -> bool)
    requires forall m :: m in mappings ==> !rejects(m)
    ensures var t := UpsertProductBuyers(table, mappings, rejects);
      UpsertProductBuyers(t, mappings, again) == t
  {
    var t := UpsertProductBuyers(table, mappings, rejects);
    assert forall m :: m in mappings ==> m in Elems(mappings);
    assert InsertMissing(t, mappings, again) == Some(t);
  }

  /** The buyer codes of the rows for pair `p`, in row order. */
  function BuyersIn(rows: seq<BuyerMapping>, p: Pair): (r: seq<string>)
    ensures forall b :: b in r <==> BuyerMapping(p, b) in rows
    ensures |r| <= |rows|
    decreases |rows|
  {
    if rows == [] then []
    else
      var rest := BuyersIn(rows[1..], p);
      assert forall x :: x in rows <==> x == rows[0] || x in rows[1..];
      if rows[0].pair == p then [rows[0].buyer] + rest else rest
  }

  /** Appending a row extends the buyer list of its own pair only. */
  lemma {:induction false} BuyersInSnoc(rows: seq<BuyerMapping>, x: BuyerMapping, p: Pair)
    ensures BuyersIn(rows + [x], p) == BuyersIn(rows, p) + (if x.pair == p then [x.buyer] else [])
    decreases |rows|
  {
    if rows == [] {
      assert [x][1..] == [];
    } else {
      assert (rows + [x])[1..] == rows[1..] + [x];
      BuyersInSnoc(rows[1..], x, p);
    }
  }

  /** Distinct rows give each pair a duplicate-free buyer list. */
  lemma {:induction false} BuyersInDistinct(rows: seq<BuyerMapping>, p: Pair)
    requires Distinct(rows)
    ensures Distinct(BuyersIn(rows, p))
    decreases |rows|
  {
    if rows != [] {
      var tail := rows[1..];
      assert Distinct(tail) by {
        forall a, b | 0 <= a < b < |tail| ensures tail[a] != tail[b] {
          assert tail[a] == rows[a + 1] && tail[b] == rows[b + 1];
        }
      }
      BuyersInDistinct(tail, p);
      if rows[0].pair == p {
        assert rows[0] !in tail by {
          forall l | 0 <= l < |tail| ensures tail[l] != rows[0] {
            assert tail[l] == rows[l + 1];
          }
        }
        var rest := BuyersIn(tail, p);
        assert rows[0].buyer !in rest;
        assert BuyersIn(rows, p) == [rows[0].buyer] + rest;
      }
    }
  }

  /** The loop of `get_product_buyers`: `mapping.setdefault(key, []).append(row[2])` over the
      rows in scan order. */
  function Group(rows: seq<BuyerMapping>): (m: BuyersOf)
    ensures forall p :: BuyersFor(m, p) == BuyersIn(rows, p)
    ensures forall p :: p in m ==> m[p] != []
    decreases |rows|
  {
    if rows == [] then map[]
    else
      var init := rows[..|rows| - 1];
      var x := rows[|rows| - 1];
      var m := Group(init);
      var m' := m[x.pair := BuyersFor(m, x.pair) + [x.buyer]];
      GroupStep(init, x, m, m');
      assert rows == init + [x];
      m'
  }

  /** The step of `Group` that appends one row. */
  lemma GroupStep(init: seq<BuyerMapping>, x: BuyerMapping, m: BuyersOf, m': BuyersOf)
    requires forall p :: BuyersFor(m, p) == BuyersIn(init, p)
    requires m' == m[x.pair := BuyersFor(m, x.pair) + [x.buyer]]
    ensures forall p :: BuyersFor(m', p) == BuyersIn(init + [x], p)
  {
    forall p
      ensures BuyersFor(m', p) == BuyersIn(init + [x], p)
    {
      BuyersInSnoc(init, x, p);
    }
  }

  /** `get_product_buyers`: the table scan, or nothing when it raises, in
      which case the dictionary stays empty. */
  function GetProductBuyers(scan: Option<seq<BuyerMapping>>): (m: BuyersOf)
    ensures scan.None? ==> m == map[]
    ensures scan.Some? ==> forall p, b :: b in BuyersFor(m, p) <==> BuyerMapping(p, b) in scan.value
    ensures scan.Some? ==> forall p :: p in m ==> m[p] != []
  {
    match scan
    case None => map[]
    case Some(rows) => Group(rows)
  }

  /** Whatever order a scan of the table returns its rows in, a buyer is
      listed for a pair exactly when the table holds that triple, and no
      buyer is listed twice. */
  lemma ScanOfTable(table: BuyerTable, rows: seq<BuyerMapping>)
    requires Distinct(rows) && Elems(rows) == table
    ensures var m := GetProductBuyers(Some(rows));
      && (forall p, b :: b in BuyersFor(m, p) <==> BuyerMapping(p, b) in table)
      && (forall p :: Distinct(BuyersFor(m, p)))
  {
    var m := GetProductBuyers(Some(rows));
    forall p ensures Distinct(BuyersFor(m, p)) {
      BuyersInDistinct(rows, p);
    }
  }
}

=== FILE: dispatch.dfy ===
/** The end of a run: the detected changes are routed to the buyers mapped
    to each pair, and every buyer with updates and an email entry gets a
    report built from their share of the product data. Writing the file,
    building the HTML body and sending the mail are not modelled; the
    report records what they would be given. */
module Dispatch {
  import opened Wrappers
  import opened Seqs
  import opened Text
  import opened Records
  import opened ExcelUtils
  import opened DbFunctions

  /** A buyer's entry of `buyer_updates`. */
  datatype Updates = Updates(priceChanges: seq<PriceChange>, newItems: seq<NewItem>)

  /** `buyer_updates`: Buyer Code to that buyer's updates. */
  type BuyerUpdates = map<string, Updates>

  /** `buyer_updates.setdefault(b, {"price_changes": [], "new_items": []})` */
  function Get(u: BuyerUpdates, b: string): Updates {
    if b in u then u[b] else Updates([], [])
  }

  /** How often `b` occurs in `bs`. */
  function Occurrences(b: string, bs: seq<string>): (n: nat)
    ensures n > 0 <==> b in bs
    ensures n <= |bs|
  {
    if bs == [] then 0
    else (if bs[0] == b then 1 else 0) + Occurrences(b, bs[1..])
  }

  /** `n` copies of `x`. */
  function Copies<T(!new)>(x: T, n: nat): (s: seq<T>)
    ensures |s| == n
    ensures forall y :: y in s <==> n > 0 && y == x
  {
    if n == 0 then [] else [x] + Copies(x, n - 1)
  }

  /** A duplicate-free list counts a buyer at most once. */
  lemma {:induction false} DistinctOccurrences(b: string, bs: seq<string>)
    requires Distinct(bs)
    ensures Occurrences(b, bs) <= 1
    decreases |bs|
  {
    if bs != [] {
      var tail := bs[1..];
      assert Distinct(tail) by {
        forall i, j | 0 <= i < j < |tail| ensures tail[i] != tail[j] {
          assert tail[i] == bs[i + 1] && tail[j] == bs[j + 1];
        }
      }
      DistinctOccurrences(b, tail);
      if bs[0] == b {
        assert b !in tail by {
          forall l | 0 <= l < |tail| ensures tail[l] != b {
            assert tail[l] == bs[l + 1];
          }
        }
      }
    }
  }

  /** The pair a price change is about. */
  function PriceKey(c: PriceChange): Pair { c.pair }

  /** The pair a new item is about. */
  function NewKey(n: NewItem): Pair { n.pair }

  /** Buyer `b`'s view of the changes `cs`: each change, in order, once for
      every time `b` is listed for its pair. */
  function Routed<T(!new)>(cs: seq<T>, key: T -> Pair, buyersOf: BuyersOf, b: string): (r: seq<T>)
    ensures forall c :: c in r <==> c in cs && b in BuyersFor(buyersOf, key(c))
    decreases |cs|
  {
    if cs == [] then []
    else
      assert forall c :: c in cs <==> c == cs[0] || c in cs[1..];
      Copies(cs[0], Occurrences(b, BuyersFor(buyersOf, key(cs[0])))) + Routed(cs[1..], key, buyersOf, b)
  }

  lemma RoutedCons<T(!new)>(cs: seq<T>, key: T -> Pair, buyersOf: BuyersOf, b: string)
    requires cs != []
    ensures Routed(cs, key, buyersOf, b)
      == Copies(cs[0], Occurrences(b, BuyersFor(buyersOf, key(cs[0])))) + Routed(cs[1..], key, buyersOf, b)
  {
  }

  /** The changes whose pair lists `b`, in order. */
  function Filtered<T>(cs: seq<T>, key: T -> Pair, buyersOf: BuyersOf, b: string): seq<T>
    decreases |cs|
  {
    if cs == [] then []
    else (if b in BuyersFor(buyersOf, key(cs[0])) then [cs[0]] else []) + Filtered(cs[1..], key, buyersOf, b)
  }

  /** When no pair lists a buyer twice, as with a table scan, a buyer's
      view is the order-preserving filter of the changes by buyer. */
  lemma {:induction false} RoutedIsFiltered<T(!new)>(cs: seq<T>, key: T -> Pair, buyersOf: BuyersOf, b: string)
    requires forall p :: Distinct(BuyersFor(buyersOf, p))
    ensures Routed(cs, key, buyersOf, b) == Filtered(cs, key, buyersOf, b)
    decreases |cs|
  {
    if cs != [] {
      var bs := BuyersFor(buyersOf, key(cs[0]));
      DistinctOccurrences(b, bs);
      RoutedIsFiltered(cs[1..], key, buyersOf, b);
      assert Copies(cs[0], Occurrences(b, bs)) == (if b in bs then [cs[0]] else []);
    }
  }

  /** The inner loop over the buyers of one price change. */
  function AddPrice(u: BuyerUpdates, c: PriceChange, buyers: seq<string>): (r: BuyerUpdates)
    ensures r.Keys == u.Keys + Elems(buyers)
    decreases |buyers|
  {
    if buyers == [] then u
    else
      var b := buyers[0];
      var e := Get(u, b);
      assert Elems(buyers) == {b} + Elems(buyers[1..]);
      AddPrice(u[b := Updates(e.priceChanges + [c], e.newItems)], c, buyers[1..])
  }

  /** The inner loop over the buyers of one new item. */
  function AddNew(u: BuyerUpdates, n: NewItem, buyers: seq<string>): (r: BuyerUpdates)
    ensures r.Keys == u.Keys + Elems(buyers)
    decreases |buyers|
  {
    if buyers == [] then u
    else
      var b := buyers[0];
      var e := Get(u, b);
      assert Elems(buyers) == {b} + Elems(buyers[1..]);
      AddNew(u[b := Updates(e.priceChanges, e.newItems + [n])], n, buyers[1..])
  }

  /** The buyers mapped to the pair of some change in `cs`. */
  function Reached<T(==)>(cs: seq<T>, key: T -> Pair, buyersOf: BuyersOf): set<string> {
    set c, b | c in cs && b in BuyersFor(buyersOf, key(c)) :: b
  }

  lemma ReachedCons<T>(cs: seq<T>, key: T -> Pair, buyersOf: BuyersOf)
    requires cs != []
    ensures Reached(cs, key, buyersOf) == Elems(BuyersFor(buyersOf, key(cs[0]))) + Reached(cs[1..], key, buyersOf)
  {
    assert forall c :: c in cs <==> c == cs[0] || c in cs[1..];
  }

  /** The loop over the price changes, in order. */
  function RoutePrices(u: BuyerUpdates, cs: seq<PriceChange>, buyersOf: BuyersOf): (r: BuyerUpdates)
    ensures r.Keys == u.Keys + Reached(cs, PriceKey, buyersOf)
    decreases |cs|
  {
    if cs == [] then u
    else
      ReachedCons(cs, PriceKey, buyersOf);
      RoutePrices(AddPrice(u, cs[0], BuyersFor(buyersOf, cs[0].pair)), cs[1..], buyersOf)
  }

  /** The loop over the new items, in order. */
  function RouteNew(u: BuyerUpdates, ns: seq<NewItem>, buyersOf: BuyersOf): (r: BuyerUpdates)
    ensures r.Keys == u.Keys + Reached(ns, NewKey, buyersOf)
    decreases |ns|
  {
    if ns == [] then u
    else
      ReachedCons(ns, NewKey, buyersOf);
      RouteNew(AddNew(u, ns[0], BuyersFor(buyersOf, ns[0].pair)), ns[1..], buyersOf)
  }

  /** `buyer_updates`: the price changes first, then the new items. A buyer
      has an entry exactly when it is mapped to the pair of some change. */
  function GroupUpdates(changes: Changes, buyersOf: BuyersOf): (r: BuyerUpdates)
    ensures r.Keys == Reached(changes.priceChanges, PriceKey, buyersOf) + Reached(changes.newItems, NewKey, buyersOf)
  {
    RouteNew(RoutePrices(map[], changes.priceChanges, buyersOf), changes.newItems, buyersOf)
  }

  lemma CopiesSucc<T(!new)>(x: T, prefix: seq<T>, n: nat)
    ensures prefix + [x] + Copies(x, n) == prefix + Copies(x, n + 1)
  {
    assert Copies(x, n + 1) == [x] + Copies(x, n);
  }

  /** One price change reaches buyer `b` once per listing of `b`. */
  lemma {:induction false} AddPriceAt(u: BuyerUpdates, c: PriceChange, buyers: seq<string>, b: string)
    ensures Get(AddPrice(u, c, buyers), b) == Updates(Get(u, b).priceChanges + Copies(c, Occurrences(b, buyers)), Get(u, b).newItems)
    decreases |buyers|
  {
    if buyers != [] {
      var x := buyers[0];
      var e := Get(u, x);
      var u' := u[x := Updates(e.priceChanges + [c], e.newItems)];
      assert AddPrice(u, c, buyers) == AddPrice(u', c, buyers[1..]);
      AddPriceAt(u', c, buyers[1..], b);
      var k := Occurrences(b, buyers[1..]);
      assert Occurrences(b, buyers) == (if x == b then 1 else 0) + k;
      if b == x {
        assert Get(u', b) == Updates(e.priceChanges + [c], e.newItems);
        CopiesSucc(c, e.priceChanges, k);
      } else {
        assert Get(u', b) == Get(u, b);
      }
    } else {
      assert Get(u, b).priceChanges + Copies(c, 0) == Get(u, b).priceChanges;
    }
  }

  /** One new item reaches buyer `b` once per listing of `b`. */
  lemma {:induction false} AddNewAt(u: BuyerUpdates, n: NewItem, buyers: seq<string>, b: string)
    ensures Get(AddNew(u, n, buyers), b) == Updates(Get(u, b).priceChanges, Get(u, b).newItems + Copies(n, Occurrences(b, buyers)))
    decreases |buyers|
  {
    if buyers != [] {
      var x := buyers[0];
      var e := Get(u, x);
      var u' := u[x := Updates(e.priceChanges, e.newItems + [n])];
      assert AddNew(u, n, buyers) == AddNew(u', n, buyers[1..]);
      AddNewAt(u', n, buyers[1..], b);
      var k := Occurrences(b, buyers[1..]);
      assert Occurrences(b, buyers) == (if x == b then 1 else 0) + k;
      if b == x {
        assert Get(u', b) == Updates(e.priceChanges, e.newItems + [n]);
        CopiesSucc(n, e.newItems, k);
      } else {
        assert Get(u', b) == Get(u, b);
      }
    } else {
      assert Get(u, b).newItems + Copies(n, 0) == Get(u, b).newItems;
    }
  }

  /** After the price loop, buyer `b` holds its earlier price changes
      followed by its view of the new ones, and its new items untouched. */
  lemma {:induction false} RoutePricesAt(u: BuyerUpdates, cs: seq<PriceChange>, buyersOf: BuyersOf, b: string)
    ensures Get(RoutePrices(u, cs, buyersOf), b).priceChanges == Get(u, b).priceChanges + Routed(cs, PriceKey, buyersOf, b)
    ensures Get(RoutePrices(u, cs, buyersOf), b).newItems == Get(u, b).newItems
    decreases |cs|
  {
    if cs != [] {
      var c := cs[0];
      var bs := BuyersFor(buyersOf, c.pair);
      var u' := AddPrice(u, c, bs);
      var r := RoutePrices(u', cs[1..], buyersOf);
      assert RoutePrices(u, cs, buyersOf) == r;
      AddPriceAt(u, c, bs, b);
      RoutePricesAt(u', cs[1..], buyersOf, b);
      RoutedCons(cs, PriceKey, buyersOf, b);
      Chain(Get(u, b).priceChanges, Copies(c, Occurrences(b, bs)), Routed(cs[1..], PriceKey, buyersOf, b),
        Get(u', b).priceChanges, Get(r, b).priceChanges);
    }
  }

  /** After the price loop, buyer `b` has an entry exactly when it had one
      before or some price change reached it. */
  lemma {:induction false} RoutePricesKeys(u: BuyerUpdates, cs: seq<PriceChange>, buyersOf: BuyersOf, b: string)
    ensures b in RoutePrices(u, cs, buyersOf) <==> b in u || Routed(cs, PriceKey, buyersOf, b) != []
    decreases |cs|
  {
    if cs != [] {
      var c := cs[0];
      var bs := BuyersFor(buyersOf, c.pair);
      var u' := AddPrice(u, c, bs);
      RoutePricesKeys(u', cs[1..], buyersOf, b);
      var here := Copies(c, Occurrences(b, bs));
      assert Routed(cs, PriceKey, buyersOf, b) == here + Routed(cs[1..], PriceKey, buyersOf, b) by {
        RoutedCons(cs, PriceKey, buyersOf, b);
      }
      assert b in Elems(bs) <==> b in bs;
    }
  }

  /** After the new-item loop, buyer `b` holds its price changes untouched,
      and its earlier new items followed by its view of the new ones. */
  lemma {:induction false} RouteNewAt(u: BuyerUpdates, ns: seq<NewItem>, buyersOf: BuyersOf, b: string)
    ensures Get(RouteNew(u, ns, buyersOf), b).priceChanges == Get(u, b).priceChanges
    ensures Get(RouteNew(u, ns, buyersOf), b).newItems == Get(u, b).newItems + Routed(ns, NewKey, buyersOf, b)
    decreases |ns|
  {
    if ns != [] {
      var n := ns[0];
      var bs := BuyersFor(buyersOf, n.pair);
      var u' := AddNew(u, n, bs);
      var r := RouteNew(u', ns[1..], buyersOf);
      assert RouteNew(u, ns, buyersOf) == r;
      AddNewAt(u, n, bs, b);
      RouteNewAt(u', ns[1..], buyersOf, b);
      RoutedCons(ns, NewKey, buyersOf, b);
      Chain(Get(u, b).newItems, Copies(n, Occurrences(b, bs)), Routed(ns[1..], NewKey, buyersOf, b),
        Get(u', b).newItems, Get(r, b).newItems);
    }
  }

  /** After the new-item loop, buyer `b` has an entry exactly when it had
      one before or some new item reached it. */
  lemma {:induction false} RouteNewKeys(u: BuyerUpdates, ns: seq<NewItem>, buyersOf: BuyersOf, b: string)
    ensures b in RouteNew(u, ns, buyersOf) <==> b in u || Routed(ns, NewKey, buyersOf, b) != []
    decreases |ns|
  {
    if ns != [] {
      var n := ns[0];
      var bs := BuyersFor(buyersOf, n.pair);
      var u' := AddNew(u, n, bs);
      RouteNewKeys(u', ns[1..], buyersOf, b);
      var here := Copies(n, Occurrences(b, bs));
      assert Routed(ns, NewKey, buyersOf, b) == here + Routed(ns[1..], NewKey, buyersOf, b) by {
        RoutedCons(ns, NewKey, buyersOf, b);
      }
      assert b in Elems(bs) <==> b in bs;
    }
  }

  /** `buyer_updates` holds a buyer exactly when some change reached it; its
      entry is its view of the price changes and of the new items, in the
      order of the global lists; and no entry is empty, so the "No updates"
      branch never runs. */
  lemma GroupUpdatesSpec(changes: Changes, buyersOf: BuyersOf)
    ensures var r := GroupUpdates(changes, buyersOf);
      && (forall b :: b in r <==>
            Routed(changes.priceChanges, PriceKey, buyersOf, b) != [] || Routed(changes.newItems, NewKey, buyersOf, b) != [])
      && (forall b :: b in r ==>
            r[b] == Updates(Routed(changes.priceChanges, PriceKey, buyersOf, b), Routed(changes.newItems, NewKey, buyersOf, b)))
      && (forall b :: b in r ==> r[b].priceChanges != [] || r[b].newItems != [])
  {
    forall b {
      GroupUpdatesAt(changes, buyersOf, b);
    }
  }

  /** `GroupUpdatesSpec` for one buyer. */
  lemma GroupUpdatesAt(changes: Changes, buyersOf: BuyersOf, b: string)
    ensures var r := GroupUpdates(changes, buyersOf);
      && (b in r <==> Routed(changes.priceChanges, PriceKey, buyersOf, b) != [] || Routed(changes.newItems, NewKey, buyersOf, b) != [])
      && (b in r ==> r[b] == Updates(Routed(changes.priceChanges, PriceKey, buyersOf, b), Routed(changes.newItems, NewKey, buyersOf, b)))
  {
    var u := RoutePrices(map[], changes.priceChanges, buyersOf);
    RoutePricesAt(map[], changes.priceChanges, buyersOf, b);
    RoutePricesKeys(map[], changes.priceChanges, buyersOf, b);
    RouteNewAt(u, changes.newItems, buyersOf, b);
    RouteNewKeys(u, changes.newItems, buyersOf, b);
  }

  /** A buyer's entry of `buyer_updates`, whether or not it was reached. */
  lemma ChangesReachMappedBuyers(changes: Changes, buyersOf: BuyersOf, b: string)
    ensures var e := Get(GroupUpdates(changes, buyersOf), b);
      && (forall c :: c in e.priceChanges <==> c in changes.priceChanges && b in BuyersFor(buyersOf, c.pair))
      && (forall n :: n in e.newItems <==> n in changes.newItems && b in BuyersFor(buyersOf, n.pair))
  {
    var u := RoutePrices(map[], changes.priceChanges, buyersOf);
    RoutePricesAt(map[], changes.priceChanges, buyersOf, b);
    RouteNewAt(u, changes.newItems, buyersOf, b);
    assert Get(map[], b) == Updates([], []);
  }

  /** A change to a pair that no buyer is mapped to reaches nobody. */
  lemma UnmappedReachesNobody(changes: Changes, buyersOf: BuyersOf, c: PriceChange, n: NewItem, b: string)
    requires c.pair !in buyersOf && n.pair !in buyersOf
    ensures var e := Get(GroupUpdates(changes, buyersOf), b);
      c !in e.priceChanges && n !in e.newItems
  {
    ChangesReachMappedBuyers(changes, buyersOf, b);
  }

  /** A row of `buyer_email_dict`. */
  datatype BuyerInfo = BuyerInfo(email: string, name: string)

  /** `buyer_email_dict`: Buyer Code to email and name. */
  type Directory = map<string, BuyerInfo>

  /** What one buyer's iteration hands to the Excel writer and the mailer. */
  datatype Report = Report(
    buyer: string, email: string, name: string,
    folder: string, fileName: string, subject: string,
    rows: seq<Product>, updates: Updates)

  /** The three ways one iteration of the loop over `buyer_updates` can end. */
  datatype Outcome = Sent(report: Report) | NoEmail | NoUpdates

  /** The folder is "First_Second_BuyerCode" from the first two
      words of the buyer's name, or the Buyer Code alone when the name has
      fewer than two words. */
  function FolderName(name: string, code: string): (r: string)
    ensures |code| <= |r| && r[|r| - |code|..] == code
    ensures r == code <==> |Words(name)| < 2
    ensures NoSpace(code) ==> NoSpace(r)
  {
    var parts := Words(name);
    if |parts| >= 2 then parts[0] + "_" + parts[1] + "_" + code else code
  }

  /** A name of two or more words gives its first two words joined by `_`:
      whitespace before the first word, any run of whitespace between the
      first two, and anything after a whitespace following the second play
      no part. */
  lemma FolderOfName(lead: string, first: string, sep: string, last: string, tail: string, code: string)
    requires AllSpace(lead) && sep != [] && AllSpace(sep)
    requires first != [] && NoSpace(first) && last != [] && NoSpace(last)
    requires tail == [] || IsSpace(tail[0])
    ensures FolderName(lead + first + sep + last + tail, code) == first + "_" + last + "_" + code
  {
    var rest := last + tail;
    assert lead + first + sep + last + tail == lead + (first + sep + rest);
    WordsAfterSpaces(lead, first + sep + rest);
    WordThenSpaces(first, sep, rest);
    WordThenEnd(last, tail);
  }

  /** A one-word name gives the Buyer Code alone. */
  lemma FolderOfOneWord(w: string, code: string)
    requires NoSpace(w)
    ensures FolderName(w, code) == code
  {
    if w != [] {
      WordsOfWord(w);
    }
  }

  /** The Excel file name, with each space of the name (and only
      the space character) replaced by `_`. */
  function FileName(name: string, stamp: string): (r: string)
    ensures |r| == |name| + |stamp| + 22
    ensures r[..16] == "product_details_" && r[|r| - 5..] == ".xlsx"
    ensures forall i :: 0 <= i < |name| ==> r[16 + i] == (if name[i] == ' ' then '_' else name[i])
    ensures ' ' !in stamp ==> ' ' !in r
  {
    "product_details_" + ReplaceChar(name, ' ', '_') + "_" + stamp + ".xlsx"
  }

  /** Names that differ only by spaces against underscores share a file name. */
  lemma FileNameSpaceIsUnderscore(a: string, b: string, stamp: string)
    ensures FileName(a + " " + b, stamp) == FileName(a + "_" + b, stamp)
  {
    var x := a + " " + b;
    var y := a + "_" + b;
    assert ReplaceChar(x, ' ', '_') == ReplaceChar(y, ' ', '_');
  }

  /** The mail subject: the buyer's name between a fixed opening and a
      fixed closing. */
  function Subject(name: string): (r: string)
    ensures |r| == |name| + 47
    ensures r[..28] == "Price Comparison Report for " && r[28..28 + |name|] == name
    ensures r[|r| - 19..] == " (Changes Detected)"
  {
    "Price Comparison Report for " + name + " (Changes Detected)"
  }

  /** Different buyer names never share a subject. */
  lemma SubjectDeterminesName(a: string, b: string)
    ensures Subject(a) == Subject(b) <==> a == b
  {
    if Subject(a) == Subject(b) {
      assert a == Subject(a)[28..28 + |a|];
    }
  }

  /** One iteration of the loop over `buyer_updates`: nothing to send, no email entry, or the
      report built from the buyer's filtered product data. */
  function DispatchOne(b: string, e: Updates, data: seq<Product>, buyersOf: BuyersOf, directory: Directory, stamp: string): (o: Outcome)
    ensures o.NoUpdates? <==> e.priceChanges == [] && e.newItems == []
    ensures o.NoEmail? <==> (e.priceChanges != [] || e.newItems != []) && b !in directory
    ensures o.Sent? ==> b in directory && o.report.buyer == b && o.report.email == directory[b].email
    ensures o.Sent? ==> o.report.updates == e
    ensures o.Sent? ==> forall x :: x in o.report.rows <==> x in data && b in BuyersFor(buyersOf, x.pair)
  {
    if e.priceChanges == [] && e.newItems == [] then NoUpdates
    else if b !in directory then NoEmail
    else
      var info := directory[b];
      Sent(Report(b, info.email, info.name, FolderName(info.name, b), FileName(info.name, stamp),
        Subject(info.name), FilterByBuyer(data, b, buyersOf), e))
  }

  /** The loop over `buyer_updates`: one outcome per entry of `buyer_updates`. The time stamp
      of each file comes from the clock; it is a parameter here. */
  function DispatchAll(u: BuyerUpdates, data: seq<Product>, buyersOf: BuyersOf, directory: Directory, stamps: string -> string): (out: map<string, Outcome>)
    ensures out.Keys == u.Keys
    ensures forall b :: b in u ==> (out[b].NoUpdates? <==> u[b].priceChanges == [] && u[b].newItems == [])
    ensures forall b :: b in u ==> (out[b].Sent? <==> (u[b].priceChanges != [] || u[b].newItems != []) && b in directory)
    ensures forall b :: b in u && out[b].Sent? ==> out[b].report.email == directory[b].email && out[b].report.updates == u[b]
  {
    map b | b in u :: DispatchOne(b, u[b], data, buyersOf, directory, stamps(b))
  }

  /** The end of a run: a buyer gets a report exactly when some change
      reached it and it has an email entry; the report carries its view of
      the changes and its share of the product data; a reached buyer with
      no email entry is skipped; and "No updates" never happens. */
  lemma FanOut(changes: Changes, data: seq<Product>, buyersOf: BuyersOf, directory: Directory, stamps: string -> string)
    ensures var out := DispatchAll(GroupUpdates(changes, buyersOf), data, buyersOf, directory, stamps);
      && (forall b :: b in out ==> !out[b].NoUpdates?)
      && (forall b :: (b in out && out[b].Sent?) <==> (b in directory
            && (Routed(changes.priceChanges, PriceKey, buyersOf, b) != [] || Routed(changes.newItems, NewKey, buyersOf, b) != [])))
      && (forall b :: (b in out && out[b].NoEmail?) <==> (b !in directory
            && (Routed(changes.priceChanges, PriceKey, buyersOf, b) != [] || Routed(changes.newItems, NewKey, buyersOf, b) != [])))
      && (forall b :: b in out && out[b].Sent? ==>
            && out[b].report.updates == Updates(Routed(changes.priceChanges, PriceKey, buyersOf, b), Routed(changes.newItems, NewKey, buyersOf, b))
            && out[b].report.rows == FilterByBuyer(data, b, buyersOf))
  {
    GroupUpdatesSpec(changes, buyersOf);
  }

  /** With the mapping read from a scan of the buyer table, each report
      holds exactly the changes to pairs that the table maps to its buyer,
      each once and in the order of the global lists. */
  lemma ReportsFromTable(changes: Changes, table: BuyerTable, rows: seq<BuyerMapping>, data: seq<Product>, directory: Directory, stamps: string -> string)
    requires Distinct(rows) && Elems(rows) == table
    ensures var buyersOf := GetProductBuyers(Some(rows));
      var out := DispatchAll(GroupUpdates(changes, buyersOf), data, buyersOf, directory, stamps);
      forall b :: b in out && out[b].Sent? ==>
        out[b].report.updates == Updates(Filtered(changes.priceChanges, PriceKey, buyersOf, b), Filtered(changes.newItems, NewKey, buyersOf, b))
  {
    var buyersOf := GetProductBuyers(Some(rows));
    ScanOfTable(table, rows);
    FanOut(changes, data, buyersOf, directory, stamps);
    forall b
      ensures Routed(changes.priceChanges, PriceKey, buyersOf, b) == Filtered(changes.priceChanges, PriceKey, buyersOf, b)
      ensures Routed(changes.newItems, NewKey, buyersOf, b) == Filtered(changes.newItems, NewKey, buyersOf, b)
    {
      RoutedIsFiltered(changes.priceChanges, PriceKey, buyersOf, b);
      RoutedIsFiltered(changes.newItems, NewKey, buyersOf, b);
    }
  }
}

=== FILE: excel_utils.dfy ===
/** `process_excel_and_split_files` without the spreadsheet reader and the
    scrapers: rows become verbatim buyer mappings and a list of unique
    pairs, each unique pair is fetched once on each side, the two fetches
    are merged into one record, and the records are sorted by pair.
    Also `filter_product_data_by_buyer`. */
module ExcelUtils {
  import opened Wrappers
  import opened Seqs
  import opened Records
  import opened Sorting

  /** One spreadsheet row: Praktis Code, Praktiker Code, Buyer Code. */
  datatype Row = Row(praktis: string, praktiker: string, buyer: string)

  function KeyOf(row: Row): Pair {
    Pair(row.praktis, row.praktiker)
  }

  /** Every (Praktis Code, Praktiker Code) key that occurs in the rows. */
  function KeysOf(rows: seq<Row>): set<Pair> {
    set row | row in rows :: KeyOf(row)
  }

  function ToMapping(row: Row): BuyerMapping {
    BuyerMapping(KeyOf(row), row.buyer)
  }

  function ToRow(m: BuyerMapping): Row {
    Row(m.pair.praktis, m.pair.praktiker, m.buyer)
  }

  /** `buyer_mappings`: one entry per row, in row order, duplicates kept;
      each entry gives back its row. */
  function BuyerMappings(rows: seq<Row>): (ms: seq<BuyerMapping>)
    ensures |ms| == |rows|
    ensures forall i :: 0 <= i < |rows| ==> ToRow(ms[i]) == rows[i]
  {
    if rows == [] then [] else [ToMapping(rows[0])] + BuyerMappings(rows[1..])
  }

  /** `list(unique_pairs.values())`: a dict keyed by pair, so each key once,
      in the order of its first row. */
  function UniquePairs(rows: seq<Row>): (ps: seq<Pair>)
    ensures Distinct(ps)
    ensures Elems(ps) == KeysOf(rows)
    decreases |rows|
  {
    if rows == [] then []
    else
      var init := rows[..|rows| - 1];
      var last := rows[|rows| - 1];
      var ps := UniquePairs(init);
      assert rows == init + [last];
      assert KeysOf(rows) == KeysOf(init) + {KeyOf(last)};
      if KeyOf(last) in ps then ps
      else
        assert Elems(ps + [KeyOf(last)]) == Elems(ps) + {KeyOf(last)};
        ps + [KeyOf(last)]
  }

  /** A row whose key was seen before adds nothing; a row with a new key
      appends that key. */
  lemma UniquePairsSnoc(rows: seq<Row>, row: Row)
    ensures KeyOf(row) in KeysOf(rows) ==> UniquePairs(rows + [row]) == UniquePairs(rows)
    ensures KeyOf(row) !in KeysOf(rows) ==> UniquePairs(rows + [row]) == UniquePairs(rows) + [KeyOf(row)]
  {
    assert (rows + [row])[..|rows|] == rows;
  }

  /** There are as many unique pairs as distinct keys among the rows. */
  lemma UniquePairsCount(rows: seq<Row>)
    ensures |UniquePairs(rows)| == |KeysOf(rows)|
  {
    DistinctCardinality(UniquePairs(rows));
  }

  /** What a scraper returns: the name and the two prices, a price the page
      lacks being None. */
  datatype Fetched = Fetched(name: string, regular: Option<string>, promo: Option<string>)

  /** A scraper for one catalogue, given a product code; None stands for an
      exception escaping it. */
  type Fetcher = string -> Option<Fetched>

  /** Python's `str()` of a price: None becomes "None", so a missing price
      and a scraped "None" print alike. */
  function PriceText(price: Option<string>): (r: string)
    ensures r == "None" <==> price == None || price == Some("None")
  {
    match price
    case None => "None"
    case Some(s) => s
  }

  /** Two prices print alike exactly when they are equal or are a missing
      price and the text "None": only that pair is conflated. */
  lemma PriceTextCollision(a: Option<string>, b: Option<string>)
    ensures PriceText(a) == PriceText(b) <==>
      a == b || (a == None && b == Some("None")) || (a == Some("None") && b == None)
  {
  }

  /** One catalogue's side of the record: the name and both prices, each
      through `str()`. */
  function ToListing(f: Fetched): Listing {
    Listing(f.name, PriceText(f.regular), PriceText(f.promo))
  }

  /** Neither fetch of the pair raises. */
  predicate Available(p: Pair, fetchA: Fetcher, fetchB: Fetcher) {
    fetchA(p.praktis).Some? && fetchB(p.praktiker).Some?
  }

  predicate AllAvailable(rows: seq<Row>, fetchA: Fetcher, fetchB: Fetcher) {
    forall p :: p in KeysOf(rows) ==> Available(p, fetchA, fetchB)
  }

  /** The eight-field record of one pair: the codes from the pair, the
      Praktis listing from the Praktis fetch, the Praktiker listing from the
      Praktiker fetch. */
  function Merged(p: Pair, fetchA: Fetcher, fetchB: Fetcher): Product
    requires Available(p, fetchA, fetchB)
  {
    Product(p, ToListing(fetchA(p.praktis).value), ToListing(fetchB(p.praktiker).value))
  }

  /** `order` lists the positions of the pairs in the order in which their
      A-side futures complete: every submitted future completes exactly once. */
  predicate IsSchedule(order: seq<nat>, n: nat) {
    && |order| == n
    && (forall k :: 0 <= k < n ==> order[k] < n)
    && (forall i :: 0 <= i < n ==> i in order)
    && Distinct(order)
  }

  /** The pairs in completion order. */
  function Select(pairs: seq<Pair>, order: seq<nat>): (s: seq<Pair>)
    requires forall k :: 0 <= k < |order| ==> order[k] < |pairs|
    ensures |s| == |order|
    ensures forall k {:trigger s[k]} :: 0 <= k < |order| ==> s[k] == pairs[order[k]]
  {
    if order == [] then [] else [pairs[order[0]]] + Select(pairs, order[1..])
  }

  datatype Side = SideA | SideB

  /** One call of a scraper: which side, for which unique pair. */
  datatype Call = Call(side: Side, pair: Pair)

  /** The pairs of the calls made on one side, in call order. */
  function CallsOn(side: Side, calls: seq<Call>): seq<Pair> {
    if calls == [] then []
    else (if calls[0].side == side then [calls[0].pair] else []) + CallsOn(side, calls[1..])
  }

  /** Every A-side call is followed at once by the B-side call for the same
      pair, and every B-side call has such an A-side call before it. */
  predicate Interleaved(calls: seq<Call>)
    decreases |calls|
  {
    calls == []
    || (&& |calls| >= 2
        && calls[0].side == SideA
        && calls[1] == Call(SideB, calls[0].pair)
        && Interleaved(calls[2..]))
  }

  /** The scraper calls made and the records built, in completion order. */
  datatype Batch = Batch(calls: seq<Call>, records: seq<Product>)

  /** The thread pool, run one future at a time in completion order: the A-side
      fetch of the pair, then inline its B-side fetch, then the merge. An
      exception from either fetch ends the batch (None). */
  function Retrieve(pairs: seq<Pair>, order: seq<nat>, fetchA: Fetcher, fetchB: Fetcher): (r: Option<Batch>)
    requires forall k :: 0 <= k < |order| ==> order[k] < |pairs|
    ensures r.Some? <==> forall k :: 0 <= k < |order| ==> Available(pairs[order[k]], fetchA, fetchB)
    ensures r.Some? ==> |r.value.records| == |order|
    ensures r.Some? ==> forall k :: 0 <= k < |order| ==> r.value.records[k] == Merged(pairs[order[k]], fetchA, fetchB)
    ensures r.Some? ==> Interleaved(r.value.calls)
    ensures r.Some? ==> CallsOn(SideA, r.value.calls) == Select(pairs, order)
    ensures r.Some? ==> CallsOn(SideB, r.value.calls) == Select(pairs, order)
  {
    if order == [] then Some(Batch([], []))
    else
      var p := pairs[order[0]];
      AvailableCons(pairs, order, fetchA, fetchB);
      match fetchA(p.praktis)
      case None => None
      case Some(a) =>
        match fetchB(p.praktiker)
        case None => None
        case Some(b) =>
          match Retrieve(pairs, order[1..], fetchA, fetchB)
          case None => None
          case Some(rest) =>
            var batch := Batch([Call(SideA, p), Call(SideB, p)] + rest.calls, [Merged(p, fetchA, fetchB)] + rest.records);
            assert forall k :: 0 <= k < |order| - 1 ==> order[1..][k] == order[k + 1];
            CallPairStep(p, rest.calls);
            assert Select(pairs, order) == [p] + Select(pairs, order[1..]);
            RecordsCons(pairs, order, rest.records, batch.records, fetchA, fetchB);
            Some(batch)
  }

  /** Every scheduled pair is available iff the first one is and every later one is. */
  lemma AvailableCons(pairs: seq<Pair>, order: seq<nat>, fetchA: Fetcher, fetchB: Fetcher)
    requires order != [] && forall k :: 0 <= k < |order| ==> order[k] < |pairs|
    ensures (forall k :: 0 <= k < |order| ==> Available(pairs[order[k]], fetchA, fetchB))
      <==> Available(pairs[order[0]], fetchA, fetchB)
           && forall k :: 0 <= k < |order[1..]| ==> Available(pairs[order[1..][k]], fetchA, fetchB)
  {
    assert forall k :: 0 <= k < |order[1..]| ==> order[1..][k] == order[k + 1];
    if forall k :: 0 <= k < |order[1..]| ==> Available(pairs[order[1..][k]], fetchA, fetchB) {
      forall k | 1 <= k < |order| ensures Available(pairs[order[k]], fetchA, fetchB) {
        assert order[k] == order[1..][k - 1];
      }
    }
  }

  /** The two calls made for one pair, in front of later calls. */
  lemma CallPairStep(p: Pair, rest: seq<Call>)
    ensures var calls := [Call(SideA, p), Call(SideB, p)] + rest;
      && (Interleaved(rest) ==> Interleaved(calls))
      && CallsOn(SideA, calls) == [p] + CallsOn(SideA, rest)
      && CallsOn(SideB, calls) == [p] + CallsOn(SideB, rest)
  {
    var calls := [Call(SideA, p), Call(SideB, p)] + rest;
    var second := [Call(SideB, p)] + rest;
    assert calls[1..] == second && second[1..] == rest && calls[2..] == rest;
    assert CallsOn(SideA, second) == CallsOn(SideA, rest);
    assert CallsOn(SideB, second) == [p] + CallsOn(SideB, rest);
  }

  /** The record facts of `Retrieve`, from the later pairs to all of them. */
  lemma RecordsCons(pairs: seq<Pair>, order: seq<nat>, rest: seq<Product>, records: seq<Product>, fetchA: Fetcher, fetchB: Fetcher)
    requires order != [] && forall k :: 0 <= k < |order| ==> order[k] < |pairs|
    requires forall k :: 0 <= k < |order| ==> Available(pairs[order[k]], fetchA, fetchB)
    requires |rest| == |order| - 1
    requires forall k :: 0 <= k < |rest| ==> rest[k] == Merged(pairs[order[k + 1]], fetchA, fetchB)
    requires records == [Merged(pairs[order[0]], fetchA, fetchB)] + rest
    ensures |records| == |order|
    ensures forall k :: 0 <= k < |order| ==> records[k] == Merged(pairs[order[k]], fetchA, fetchB)
  {
    forall k | 1 <= k < |order|
      ensures records[k] == Merged(pairs[order[k]], fetchA, fetchB)
    {
      assert records[k] == rest[k - 1];
    }
  }

  /** The result of `process_excel_and_split_files`. */
  datatype Sheet = Sheet(products: seq<Product>, mappings: seq<BuyerMapping>)

  /** The records of a complete batch have pairwise distinct pairs. */
  lemma BatchDistinct(pairs: seq<Pair>, order: seq<nat>, fetchA: Fetcher, fetchB: Fetcher)
    requires Distinct(pairs) && IsSchedule(order, |pairs|)
    requires Retrieve(pairs, order, fetchA, fetchB).Some?
    ensures DistinctPairs(Retrieve(pairs, order, fetchA, fetchB).value.records)
  {
    var records := Retrieve(pairs, order, fetchA, fetchB).value.records;
    forall i, j | 0 <= i < j < |records|
      ensures records[i].pair != records[j].pair
    {
      assert records[i].pair == pairs[order[i]] && records[j].pair == pairs[order[j]];
    }
  }

  /** A batch over a schedule completes exactly when every pair is
      available, and then holds exactly the merged records of the pairs. */
  lemma BatchCovers(pairs: seq<Pair>, order: seq<nat>, fetchA: Fetcher, fetchB: Fetcher)
    requires IsSchedule(order, |pairs|)
    ensures Retrieve(pairs, order, fetchA, fetchB).Some? <==> forall p :: p in pairs ==> Available(p, fetchA, fetchB)
    ensures Retrieve(pairs, order, fetchA, fetchB).Some? ==>
      var records := Retrieve(pairs, order, fetchA, fetchB).value.records;
      && (forall x :: x in records ==> x.pair in pairs && x == Merged(x.pair, fetchA, fetchB))
      && (forall p :: p in pairs ==> Merged(p, fetchA, fetchB) in records)
  {
    var r := Retrieve(pairs, order, fetchA, fetchB);
    if r.Some? {
      var records := r.value.records;
      CompleteBatchRecords(pairs, order, records, fetchA, fetchB);
    } else {
      var k :| 0 <= k < |order| && !Available(pairs[order[k]], fetchA, fetchB);
      assert pairs[order[k]] in pairs;
    }
  }

  lemma CompleteBatchRecords(pairs: seq<Pair>, order: seq<nat>, records: seq<Product>, fetchA: Fetcher, fetchB: Fetcher)
    requires IsSchedule(order, |pairs|)
    requires forall k :: 0 <= k < |order| ==> Available(pairs[order[k]], fetchA, fetchB)
    requires |records| == |order|
    requires forall k :: 0 <= k < |order| ==> records[k] == Merged(pairs[order[k]], fetchA, fetchB)
    ensures forall p :: p in pairs ==> Available(p, fetchA, fetchB) && Merged(p, fetchA, fetchB) in records
    ensures forall x :: x in records ==> x.pair in pairs && x == Merged(x.pair, fetchA, fetchB)
  {
    forall p | p in pairs
      ensures Available(p, fetchA, fetchB) && Merged(p, fetchA, fetchB) in records
    {
      var i :| 0 <= i < |pairs| && pairs[i] == p;
      assert i in order;
      var k :| 0 <= k < |order| && order[k] == i;
      assert records[k] == Merged(p, fetchA, fetchB);
    }
    forall x | x in records
      ensures x.pair in pairs && x == Merged(x.pair, fetchA, fetchB)
    {
      var k :| 0 <= k < |records| && records[k] == x;
      assert x == Merged(pairs[order[k]], fetchA, fetchB);
    }
  }

  /** The same, for the unique pairs of the rows. */
  lemma BatchContents(rows: seq<Row>, order: seq<nat>, fetchA: Fetcher, fetchB: Fetcher)
    requires IsSchedule(order, |UniquePairs(rows)|)
    ensures Retrieve(UniquePairs(rows), order, fetchA, fetchB).Some? <==> AllAvailable(rows, fetchA, fetchB)
    ensures AllAvailable(rows, fetchA, fetchB) ==>
      var records := Retrieve(UniquePairs(rows), order, fetchA, fetchB).value.records;
      && (forall x :: x in records ==> x.pair in KeysOf(rows) && x == Merged(x.pair, fetchA, fetchB))
      && (forall p :: p in KeysOf(rows) ==> Merged(p, fetchA, fetchB) in records)
      && |records| == |KeysOf(rows)|
      && DistinctPairs(records)
  {
    var pairs := UniquePairs(rows);
    BatchCovers(pairs, order, fetchA, fetchB);
    assert forall p :: p in pairs <==> p in KeysOf(rows) by {
      assert forall p :: p in pairs <==> p in Elems(pairs);
    }
    if AllAvailable(rows, fetchA, fetchB) {
      BatchDistinct(pairs, order, fetchA, fetchB);
      UniquePairsCount(rows);
    }
  }

  /** `process_excel_and_split_files`: a spreadsheet that could not be read (None) or any
      exception from a scraper yields two empty lists; otherwise the merged
      records sorted by pair, and the buyer mappings. */
  function ProcessSheet(input: Option<seq<Row>>, order: seq<nat>, fetchA: Fetcher, fetchB: Fetcher): (r: Sheet)
    requires input.Some? ==> IsSchedule(order, |UniquePairs(input.value)|)
    ensures StrictlySorted(r.products)
    ensures input.None? ==> r == Sheet([], [])
    ensures input.Some? && !AllAvailable(input.value, fetchA, fetchB) ==> r == Sheet([], [])
    ensures input.Some? && AllAvailable(input.value, fetchA, fetchB) ==>
      && r.mappings == BuyerMappings(input.value)
      && |r.products| == |KeysOf(input.value)|
      && (forall x :: x in r.products ==> x.pair in KeysOf(input.value) && x == Merged(x.pair, fetchA, fetchB))
      && (forall p :: p in KeysOf(input.value) ==> Merged(p, fetchA, fetchB) in r.products)
  {
    match input
    case None => Sheet([], [])
    case Some(rows) =>
      var pairs := UniquePairs(rows);
      BatchContents(rows, order, fetchA, fetchB);
      match Retrieve(pairs, order, fetchA, fetchB)
      case None => Sheet([], [])
      case Some(batch) =>
        BatchDistinct(pairs, order, fetchA, fetchB);
        UniquePairsCount(rows);
        var sorted := SortProducts(batch.records);
        SortedDistinctIsStrict(sorted);
        assert forall x :: x in sorted <==> x in batch.records by {
          assert forall x :: x in sorted <==> x in multiset(sorted);
          assert forall x :: x in batch.records <==> x in multiset(batch.records);
        }
        Sheet(sorted, BuyerMappings(rows))
  }

  /** The completion order of the fetches does not show in the result. */
  lemma ProcessSheetOrderIndependent(rows: seq<Row>, order1: seq<nat>, order2: seq<nat>, fetchA: Fetcher, fetchB: Fetcher)
    requires IsSchedule(order1, |UniquePairs(rows)|) && IsSchedule(order2, |UniquePairs(rows)|)
    ensures ProcessSheet(Some(rows), order1, fetchA, fetchB) == ProcessSheet(Some(rows), order2, fetchA, fetchB)
  {
    if AllAvailable(rows, fetchA, fetchB) {
      var r1 := ProcessSheet(Some(rows), order1, fetchA, fetchB);
      var r2 := ProcessSheet(Some(rows), order2, fetchA, fetchB);
      forall x
        ensures x in r1.products <==> x in r2.products
      {
        if x in r1.products {
          assert Merged(x.pair, fetchA, fetchB) in r2.products;
        }
        if x in r2.products {
          assert Merged(x.pair, fetchA, fetchB) in r1.products;
        }
      }
      StrictlySortedUnique(r1.products, r2.products);
    }
  }

  /** Over a schedule, the pairs in completion order are the pairs, each once. */
  lemma SelectCovers(pairs: seq<Pair>, order: seq<nat>)
    requires Distinct(pairs) && IsSchedule(order, |pairs|)
    ensures Distinct(Select(pairs, order)) && Elems(Select(pairs, order)) == Elems(pairs)
  {
    SelectDistinct(pairs, order);
    SelectElems(pairs, order);
  }

  lemma SelectDistinct(pairs: seq<Pair>, order: seq<nat>)
    requires Distinct(pairs) && IsSchedule(order, |pairs|)
    ensures Distinct(Select(pairs, order))
  {
    var s := Select(pairs, order);
    forall i, j | 0 <= i < j < |s|
      ensures s[i] != s[j]
    {
      assert s[i] == pairs[order[i]] && s[j] == pairs[order[j]];
      assert order[i] != order[j];
    }
  }

  lemma SelectElems(pairs: seq<Pair>, order: seq<nat>)
    requires IsSchedule(order, |pairs|)
    ensures Elems(Select(pairs, order)) == Elems(pairs)
  {
    var s := Select(pairs, order);
    forall p | p in pairs
      ensures p in s
    {
      var i :| 0 <= i < |pairs| && pairs[i] == p;
      assert i in order;
      var k :| 0 <= k < |order| && order[k] == i;
      assert s[k] == p;
    }
    forall p | p in s
      ensures p in pairs
    {
      var k :| 0 <= k < |s| && s[k] == p;
      assert pairs[order[k]] == p;
    }
  }

  /** The Praktiker fetches the loop makes, in completion order, whether or
      not the batch succeeds: one per completed future up to the first
      exception. A Praktis future that raised gets none; a Praktiker fetch
      that raised was made. */
  function PraktikerCalls(pairs: seq<Pair>, order: seq<nat>, fetchA: Fetcher, fetchB: Fetcher): (r: seq<Pair>)
    requires forall k :: 0 <= k < |order| ==> order[k] < |pairs|
    ensures |r| <= |order| && r == Select(pairs, order)[..|r|]
    ensures Retrieve(pairs, order, fetchA, fetchB).Some? ==> r == Select(pairs, order)
    decreases |order|
  {
    if order == [] then []
    else
      var p := pairs[order[0]];
      assert forall k :: 0 <= k < |order| - 1 ==> order[1..][k] == order[k + 1];
      assert Select(pairs, order) == [p] + Select(pairs, order[1..]);
      if fetchA(p.praktis).None? then []
      else if fetchB(p.praktiker).None? then [p]
      else [p] + PraktikerCalls(pairs, order[1..], fetchA, fetchB)
  }

  /** One Praktis future is submitted per distinct pair, however often its
      key repeats among the rows. The Praktiker fetches never repeat a pair,
      whether or not the batch succeeds, and when every fetch succeeds
      each distinct pair gets exactly one fetch from each catalogue. */
  lemma FetchesPerUniquePair(rows: seq<Row>, order: seq<nat>, fetchA: Fetcher, fetchB: Fetcher)
    requires IsSchedule(order, |UniquePairs(rows)|)
    ensures Distinct(UniquePairs(rows)) && Elems(UniquePairs(rows)) == KeysOf(rows)
    ensures var b := PraktikerCalls(UniquePairs(rows), order, fetchA, fetchB);
      Distinct(b) && Elems(b) <= KeysOf(rows)
    ensures AllAvailable(rows, fetchA, fetchB) ==>
      var calls := Retrieve(UniquePairs(rows), order, fetchA, fetchB).value.calls;
      && Distinct(CallsOn(SideA, calls)) && Elems(CallsOn(SideA, calls)) == KeysOf(rows)
      && Distinct(CallsOn(SideB, calls)) && Elems(CallsOn(SideB, calls)) == KeysOf(rows)
      && PraktikerCalls(UniquePairs(rows), order, fetchA, fetchB) == CallsOn(SideB, calls)
  {
    var pairs := UniquePairs(rows);
    BatchContents(rows, order, fetchA, fetchB);
    SelectCovers(pairs, order);
    var s := Select(pairs, order);
    var b := PraktikerCalls(pairs, order, fetchA, fetchB);
    forall i, j | 0 <= i < j < |b| ensures b[i] != b[j] {
      assert b[i] == s[i] && b[j] == s[j];
    }
    forall p | p in b ensures p in KeysOf(rows) {
      var i :| 0 <= i < |b| && b[i] == p;
      assert s[i] == p && s[i] in Elems(s);
    }
  }

  /** `filter_product_data_by_buyer`: the records whose pair maps to a list
      holding `buyer`, in their original order. */
  function FilterByBuyer(products: seq<Product>, buyer: string, buyersOf: BuyersOf): (r: seq<Product>)
    ensures forall x :: x in r <==> x in products && buyer in BuyersFor(buyersOf, x.pair)
    ensures forall x :: x in r ==> x.pair in buyersOf
    ensures |r| <= |products|
  {
    if products == [] then []
    else
      (if buyer in BuyersFor(buyersOf, products[0].pair) then [products[0]] else [])
      + FilterByBuyer(products[1..], buyer, buyersOf)
  }

  /** Filtering distributes over concatenation, so it keeps relative order. */
  lemma {:induction false} FilterByBuyerAppend(a: seq<Product>, b: seq<Product>, buyer: string, buyersOf: BuyersOf)
    ensures FilterByBuyer(a + b, buyer, buyersOf) == FilterByBuyer(a, buyer, buyersOf) + FilterByBuyer(b, buyer, buyersOf)
    decreases |a|
  {
    if a != [] {
      assert (a + b)[0] == a[0] && (a + b)[1..] == a[1..] + b;
      var head := if buyer in BuyersFor(buyersOf, a[0].pair) then [a[0]] else [];
      assert FilterByBuyer(a + b, buyer, buyersOf) == head + FilterByBuyer(a[1..] + b, buyer, buyersOf);
      FilterByBuyerAppend(a[1..], b, buyer, buyersOf);
      Chain(head, FilterByBuyer(a[1..], buyer, buyersOf), FilterByBuyer(b, buyer, buyersOf),
        FilterByBuyer(a, buyer, buyersOf), FilterByBuyer(a, buyer, buyersOf) + FilterByBuyer(b, buyer, buyersOf));
    } else {
      assert a + b == b;
    }
  }
}

=== FILE: helpers.dfy ===
/** `safe_float`: the tolerant number parser used when prices are read for
    the mail report. Python's `float()` grammar is not modelled: it is the
    parameter `parse`, a partial parse that yields None where `float()`
    raises. */
module Helpers {
  import opened Wrappers
  import opened Text

  /** The argument of `safe_float`: a `str`, a number (`int` or `float`),
      or anything else, such as None. */
  datatype Value = Str(s: string) | Num(x: real) | Other

  /** `''.join(value.split()).replace(",", ".")` */
  function Normalize(s: string): (t: string)
    ensures NoSpace(t) && ',' !in t
    ensures t == ReplaceChar(DropSpaces(s), ',', '.')
  {
    ReplaceChar(Join(Words(s)), ',', '.')
  }

  /** `t.upper()` on the ASCII letters; no other character upper-cases to
      'N', '/' or 'A'. */
  function Upper(t: string): (r: string)
    ensures |r| == |t|
    ensures forall i :: 0 <= i < |t| ==> (r[i] == 'N' <==> t[i] == 'N' || t[i] == 'n')
    ensures forall i :: 0 <= i < |t| ==> (r[i] == 'A' <==> t[i] == 'A' || t[i] == 'a')
    ensures forall i :: 0 <= i < |t| ==> (r[i] == '/' <==> t[i] == '/')
  {
    if t == [] then [] else [UpperChar(t[0])] + Upper(t[1..])
  }

  function UpperChar(c: char): char {
    if 'a' <= c <= 'z' then (c as int - 32) as char else c
  }

  /** `value.strip().upper() == "N/A"` on a normalised string (which holds
      no whitespace, so `strip()` changes nothing). */
  predicate NotAvailable(t: string)
    ensures NotAvailable(t) <==> t in {"N/A", "N/a", "n/A", "n/a"}
  {
    assert Upper(t) == "N/A" ==> t in {"N/A", "N/a", "n/A", "n/a"} by {
      if Upper(t) == "N/A" {
        assert |t| == 3;
        assert t == [t[0], t[1], t[2]];
      }
    }
    assert t in {"N/A", "N/a", "n/A", "n/a"} ==> Upper(t) == "N/A" by {
      if t in {"N/A", "N/a", "n/A", "n/a"} {
        assert Upper(t) == [Upper(t)[0], Upper(t)[1], Upper(t)[2]];
      }
    }
    Upper(t) == "N/A"
  }

  function SafeFloat(v: Value, parse: string -> Option<real>): (r: real)
    ensures v.Other? ==> r == 0.0
    ensures v.Num? ==> r == v.x
    ensures v.Str? && NotAvailable(Normalize(v.s)) ==> r == 0.0
    ensures v.Str? && parse(ReplaceChar(DropSpaces(v.s), ',', '.')).None? ==> r == 0.0
    ensures v.Str? && !NotAvailable(Normalize(v.s)) && parse(ReplaceChar(DropSpaces(v.s), ',', '.')).Some?
      ==> r == parse(ReplaceChar(DropSpaces(v.s), ',', '.')).value
  {
    match v
    case Str(s) =>
      var t := Normalize(s);
      if NotAvailable(t) then 0.0 else parse(t).GetOr(0.0)
    case Num(x) => x
    case Other => 0.0
  }

  /** Normalising twice is normalising once. */
  lemma NormalizeIdempotent(s: string)
    ensures Normalize(Normalize(s)) == Normalize(s)
  {
    var t := Normalize(s);
    assert DropSpaces(t) == t;
    assert ReplaceChar(t, ',', '.') == t;
  }

  /** Whitespace anywhere in the text changes nothing: "1 400" reads as "1400". */
  lemma SafeFloatIgnoresWhitespace(s: string, s': string, parse: string -> Option<real>)
    requires DropSpaces(s) == DropSpaces(s')
    ensures SafeFloat(Str(s), parse) == SafeFloat(Str(s'), parse)
  {
  }

  /** A decimal comma reads as a decimal point: "12,50" reads as "12.50". */
  lemma SafeFloatCommaIsDot(s: string, parse: string -> Option<real>)
    ensures SafeFloat(Str(ReplaceChar(s, ',', '.')), parse) == SafeFloat(Str(s), parse)
  {
    NormalizeCommaIsDot(s);
  }

  lemma NormalizeCommaIsDot(s: string)
    ensures Normalize(ReplaceChar(s, ',', '.')) == Normalize(s)
  {
    var d := DropSpaces(s);
    var once := ReplaceChar(d, ',', '.');
    DropSpacesReplaceCommute(s, ',', '.');
    assert DropSpaces(ReplaceChar(s, ',', '.')) == once;
    ReplaceCharTwice(d, ',', '.');
  }

  lemma ReplaceCharTwice(s: string, from: char, to: char)
    ensures ReplaceChar(ReplaceChar(s, from, to), from, to) == ReplaceChar(s, from, to)
  {
  }

  /** "N/A" in any letter case, with any whitespace inside or around it, is 0. */
  lemma SafeFloatNotAvailable(s: string, parse: string -> Option<real>)
    requires DropSpaces(s) in {"N/A", "N/a", "n/A", "n/a"}
    ensures SafeFloat(Str(s), parse) == 0.0
  {
    var d := DropSpaces(s);
    assert ',' !in d;
    ReplaceCharAbsent(d, ',', '.');
    NotAvailableSpellings(Normalize(s));
  }

  lemma NotAvailableSpellings(t: string)
    requires t in {"N/A", "N/a", "n/A", "n/a"}
    ensures NotAvailable(t)
  {
  }

  /** One whitespace character between two pieces of text changes nothing. */
  lemma SafeFloatSpaceInside(a: string, c: char, b: string, parse: string -> Option<real>)
    requires IsSpace(c)
    ensures SafeFloat(Str(a + [c] + b), parse) == SafeFloat(Str(a + b), parse)
  {
    var da := DropSpaces(a);
    assert DropSpaces([c]) == [] by {
      assert [c][1..] == [];
    }
    assert DropSpaces(a + [c]) == da by {
      DropSpacesAppend(a, [c]);
      assert da + [] == da;
    }
    assert DropSpaces(a + [c] + b) == da + DropSpaces(b) by {
      DropSpacesAppend(a + [c], b);
    }
    assert DropSpaces(a + b) == da + DropSpaces(b) by {
      DropSpacesAppend(a, b);
    }
    SafeFloatIgnoresWhitespace(a + [c] + b, a + b, parse);
  }

  /** "1 400" and "1400" give the same result. */
  lemma SafeFloatSpacedThousands(parse: string -> Option<real>)
    ensures SafeFloat(Str("1 400"), parse) == SafeFloat(Str("1400"), parse)
  {
    assert "1 400" == "1" + [' '] + "400" && "1400" == "1" + "400";
    SafeFloatSpaceInside("1", ' ', "400", parse);
  }

  /** "12,50" and "12.50" give the same result. */
  lemma SafeFloatDecimalComma(parse: string -> Option<real>)
    ensures SafeFloat(Str("12,50"), parse) == SafeFloat(Str("12.50"), parse)
  {
    DecimalCommaReplaced();
    SafeFloatCommaIsDot("12,50", parse);
  }

  lemma DecimalCommaReplaced()
    ensures ReplaceChar("12,50", ',', '.') == "12.50"
  {
    var r := ReplaceChar("12,50", ',', '.');
    assert r == [r[0], r[1], r[2], r[3], r[4]];
  }
}

=== FILE: records.dfy ===
/** The records the pipeline passes between its stages: a product pair, the
    merged product record with one listing per catalogue, and the rows of
    the buyer table. */
module Records {
  import opened Text

  /** The identity of one comparison: (Praktis Code, Praktiker Code). */
  datatype Pair = Pair(praktis: string, praktiker: string)

  /** One catalogue's side of a product record: name, regular price and
      promo price, each already passed through Python's `str()`. */
  datatype Listing = Listing(name: string, regular: string, promo: string)

  /** The eight-field dictionary built for each unique pair: both codes,
      the Praktis listing and the Praktiker listing. */
  datatype Product = Product(pair: Pair, praktis: Listing, praktiker: Listing)

  /** One row of the buyer table: a pair and a Buyer Code. */
  datatype BuyerMapping = BuyerMapping(pair: Pair, buyer: string)

  /** The dictionary from pair to the buyer codes mapped to it. */
  type BuyersOf = map<Pair, seq<string>>

  /** `buyer_mapping_dict.get(key, [])` */
  function BuyersFor(m: BuyersOf, p: Pair): seq<string> {
    if p in m then m[p] else []
  }

  /** Python's `<` on the tuple (Praktis Code, Praktiker Code). */
  predicate PairLt(p: Pair, q: Pair)
    ensures PairLt(p, q) ==> p != q
    ensures StrLt(p.praktis, q.praktis) ==> PairLt(p, q)
    ensures p.praktis == q.praktis ==> (PairLt(p, q) <==> StrLt(p.praktiker, q.praktiker))
  {
    if p.praktis != q.praktis then StrLt(p.praktis, q.praktis)
    else StrLt(p.praktiker, q.praktiker)
  }

  predicate PairLe(p: Pair, q: Pair) {
    p == q || PairLt(p, q)
  }

  lemma PairLtIrreflexive(p: Pair)
    ensures !PairLt(p, p)
  {
    StrLtIrreflexive(p.praktiker);
  }

  lemma PairLtTransitive(p: Pair, q: Pair, r: Pair)
    requires PairLt(p, q) && PairLt(q, r)
    ensures PairLt(p, r)
  {
    if p.praktis != q.praktis && q.praktis != r.praktis {
      StrLtTransitive(p.praktis, q.praktis, r.praktis);
      if p.praktis == r.praktis {
        StrLtIrreflexive(p.praktis);
      }
    } else if p.praktis == q.praktis && q.praktis == r.praktis {
      StrLtTransitive(p.praktiker, q.praktiker, r.praktiker);
    }
  }

  lemma PairLeTransitive(p: Pair, q: Pair, r: Pair)
    requires PairLe(p, q) && PairLe(q, r)
    ensures PairLe(p, r)
  {
    if p != q && q != r {
      PairLtTransitive(p, q, r);
    }
  }

  /** Any two pairs are equal or ordered one way or the other. */
  lemma PairLtTotal(p: Pair, q: Pair)
    ensures p == q || PairLt(p, q) || PairLt(q, p)
  {
    StrLtTotal(p.praktis, q.praktis);
    StrLtTotal(p.praktiker, q.praktiker);
  }
}

=== FILE: seqs.dfy ===
/** Small facts about sequences used by several modules. */
module Seqs {

  /** No element occurs twice. */
  predicate Distinct<T(==)>(s: seq<T>) {
    forall i, j :: 0 <= i < j < |s| ==> s[i] != s[j]
  }

  /** The elements of a sequence as a set. */
  function Elems<T>(s: seq<T>): set<T> {
    set x | x in s
  }

  /** A duplicate-free sequence has as many elements as its set. */
  lemma {:induction false} DistinctCardinality<T>(s: seq<T>)
    requires Distinct(s)
    ensures |Elems(s)| == |s|
    decreases |s|
  {
    if s != [] {
      var rest := s[1..];
      assert Distinct(rest);
      DistinctCardinality(rest);
      assert Elems(s) == Elems(rest) + {s[0]};
      assert forall k :: 0 <= k < |rest| ==> rest[k] == s[k + 1] && s[k + 1] != s[0];
      assert s[0] !in Elems(rest);
    }
  }

  /** Re-associates `(x + here) + later`; stated over names so that the
      solver need not search for it. */
  lemma Chain<T>(x: seq<T>, here: seq<T>, later: seq<T>, mid: seq<T>, end: seq<T>)
    requires mid == x + here && end == mid + later
    ensures end == x + (here + later)
  {
  }
}

=== FILE: sorting.dfy ===
/** `sorted(results, key=lambda x: (x["Praktis Code"], x["Praktiker Code"]))`
    as a stable insertion sort on the pair key, and the fact that makes the
    completion order of the fetches irrelevant: a strictly sorted sequence
    is determined by its elements. */
module Sorting {
  import opened Records

  predicate Sorted(s: seq<Product>) {
    forall i, j :: 0 <= i < j < |s| ==> PairLe(s[i].pair, s[j].pair)
  }

  predicate StrictlySorted(s: seq<Product>) {
    forall i, j :: 0 <= i < j < |s| ==> PairLt(s[i].pair, s[j].pair)
  }

  /** No two records share a pair key. */
  predicate DistinctPairs(s: seq<Product>) {
    forall i, j :: 0 <= i < j < |s| ==> s[i].pair != s[j].pair
  }

  /** Every key in `s` is at least `p`. */
  predicate AllAbove(p: Pair, s: seq<Product>) {
    forall k :: 0 <= k < |s| ==> PairLe(p, s[k].pair)
  }

  /** No record in `s` has key `p`. */
  predicate Absent(p: Pair, s: seq<Product>) {
    forall k :: 0 <= k < |s| ==> s[k].pair != p
  }

  lemma SortedCons(x: Product, s: seq<Product>)
    requires AllAbove(x.pair, s) && Sorted(s)
    ensures Sorted([x] + s)
  {
  }

  lemma DistinctCons(x: Product, s: seq<Product>)
    ensures Absent(x.pair, s) && DistinctPairs(s) ==> DistinctPairs([x] + s)
  {
  }

  /** Puts `x` before the first element whose key is not below it, so that
      `x` precedes the elements of equal key (stability). */
  function Insert(x: Product, t: seq<Product>): (r: seq<Product>)
    requires Sorted(t)
    ensures Sorted(r)
    ensures multiset(r) == multiset(t) + multiset{x}
    ensures forall p :: AllAbove(p, t) && PairLe(p, x.pair) ==> AllAbove(p, r)
    ensures forall p :: Absent(p, t) && p != x.pair ==> Absent(p, r)
    ensures DistinctPairs(t) && Absent(x.pair, t) ==> DistinctPairs(r)
  {
    if t == [] then [x]
    else if PairLe(x.pair, t[0].pair) then
      assert AllAbove(x.pair, t) by {
        forall j | 0 <= j < |t|
          ensures PairLe(x.pair, t[j].pair)
        {
          PairLeTransitive(x.pair, t[0].pair, t[j].pair);
        }
      }
      SortedCons(x, t);
      [x] + t
    else
      var rest := Insert(x, t[1..]);
      InsertStep(x, t, rest);
      [t[0]] + rest
  }

  /** The step of `Insert` that keeps `t[0]` in front. */
  lemma InsertStep(x: Product, t: seq<Product>, rest: seq<Product>)
    requires Sorted(t) && t != [] && !PairLe(x.pair, t[0].pair)
    requires Sorted(rest)
    requires multiset(rest) == multiset(t[1..]) + multiset{x}
    requires forall p :: AllAbove(p, t[1..]) && PairLe(p, x.pair) ==> AllAbove(p, rest)
    requires forall p :: Absent(p, t[1..]) && p != x.pair ==> Absent(p, rest)
    requires DistinctPairs(t[1..]) && Absent(x.pair, t[1..]) ==> DistinctPairs(rest)
    ensures Sorted([t[0]] + rest)
    ensures multiset([t[0]] + rest) == multiset(t) + multiset{x}
    ensures forall p :: AllAbove(p, t) && PairLe(p, x.pair) ==> AllAbove(p, [t[0]] + rest)
    ensures forall p :: Absent(p, t) && p != x.pair ==> Absent(p, [t[0]] + rest)
    ensures DistinctPairs(t) && Absent(x.pair, t) ==> DistinctPairs([t[0]] + rest)
  {
    PairLtTotal(x.pair, t[0].pair);
    var tail := t[1..];
    assert t == [t[0]] + tail;
    assert AllAbove(t[0].pair, tail);
    SortedCons(t[0], rest);
    forall p | AllAbove(p, t) && PairLe(p, x.pair)
      ensures AllAbove(p, [t[0]] + rest)
    {
      assert AllAbove(p, tail);
    }
    forall p | Absent(p, t) && p != x.pair
      ensures Absent(p, [t[0]] + rest)
    {
      assert Absent(p, tail);
    }
    if DistinctPairs(t) && Absent(x.pair, t) {
      assert Absent(t[0].pair, tail);
      assert DistinctPairs(tail) && Absent(x.pair, tail);
      DistinctCons(t[0], rest);
    }
  }

  function SortProducts(s: seq<Product>): (r: seq<Product>)
    ensures Sorted(r)
    ensures multiset(r) == multiset(s)
    ensures forall p :: Absent(p, s) ==> Absent(p, r)
    ensures DistinctPairs(s) ==> DistinctPairs(r)
  {
    if s == [] then []
    else
      var rest := SortProducts(s[1..]);
      TailFacts(s);
      Insert(s[0], rest)
  }

  /** What a sequence's key facts say about its head and tail. */
  lemma TailFacts(s: seq<Product>)
    requires s != []
    ensures multiset(s) == multiset(s[1..]) + multiset{s[0]}
    ensures forall p :: Absent(p, s) ==> Absent(p, s[1..]) && p != s[0].pair
    ensures DistinctPairs(s) ==> DistinctPairs(s[1..]) && Absent(s[0].pair, s[1..])
  {
    var tail := s[1..];
    assert s == [s[0]] + tail;
    forall p | Absent(p, s)
      ensures Absent(p, tail)
    {
      assert forall k :: 0 <= k < |tail| ==> tail[k] == s[k + 1];
    }
    if DistinctPairs(s) {
      assert forall k :: 0 <= k < |tail| ==> tail[k] == s[k + 1];
    }
  }

  lemma SortedDistinctIsStrict(s: seq<Product>)
    requires Sorted(s) && DistinctPairs(s)
    ensures StrictlySorted(s)
  {
  }

  /** Two strictly sorted sequences with the same elements are equal. */
  lemma {:induction false} StrictlySortedUnique(a: seq<Product>, b: seq<Product>)
    requires StrictlySorted(a) && StrictlySorted(b)
    requires forall x :: x in a <==> x in b
    ensures a == b
    decreases |a|
  {
    assert |a| > 0 ==> a[0] in b;
    assert |b| > 0 ==> b[0] in a;
    if a != [] && b != [] {
      assert a[0] in a && b[0] in b;
      var i :| 0 <= i < |a| && a[i] == b[0];
      var j :| 0 <= j < |b| && b[j] == a[0];
      if 0 < i && 0 < j {
        PairLtTransitive(a[0].pair, b[0].pair, a[0].pair);
        PairLtIrreflexive(a[0].pair);
      }
      assert a[0] == b[0];
      forall x
        ensures x in a[1..] <==> x in b[1..]
      {
        if x in a[1..] {
          var k :| 0 <= k < |a| - 1 && a[1..][k] == x;
          assert a[k + 1] == x && x in b;
          PairLtIrreflexive(a[0].pair);
          assert x != b[0];
          var l :| 0 <= l < |b| && b[l] == x;
          assert b[1..][l - 1] == x;
        }
        if x in b[1..] {
          var k :| 0 <= k < |b| - 1 && b[1..][k] == x;
          assert b[k + 1] == x && x in a;
          PairLtIrreflexive(b[0].pair);
          assert x != a[0];
          var l :| 0 <= l < |a| && a[l] == x;
          assert a[1..][l - 1] == x;
        }
      }
      StrictlySortedUnique(a[1..], b[1..]);
      assert a == [a[0]] + a[1..] && b == [b[0]] + b[1..];
    }
  }
}

=== FILE: text.dfy ===
/** The parts of Python's `str` that the program relies on: `isspace`,
    `split()` with no argument, `''.join`, `replace` of one character and
    the `<` order on strings. */
module Text {
  import opened Seqs

  /** Python's `str.isspace()` for one character: the separators that
      `split()` with no argument discards. */
  predicate IsSpace(c: char) {
    || c == ' ' || c == '\t' || c == '\n' || c == '\r' || c == '\U{B}' || c == '\U{C}'
    || ('\U{1C}' <= c <= '\U{1F}') || c == '\U{85}' || c == '\U{A0}' || c == '\U{1680}'
    || ('\U{2000}' <= c <= '\U{200A}') || c == '\U{2028}' || c == '\U{2029}'
    || c == '\U{202F}' || c == '\U{205F}' || c == '\U{3000}'
  }

  predicate NoSpace(s: string) {
    forall i :: 0 <= i < |s| ==> !IsSpace(s[i])
  }

  /** The characters of `s` that are not whitespace, in order. */
  function DropSpaces(s: string): (r: string)
    ensures NoSpace(r)
    ensures |r| <= |s|
    ensures NoSpace(s) ==> r == s
  {
    if s == [] then []
    else if IsSpace(s[0]) then DropSpaces(s[1..])
    else [s[0]] + DropSpaces(s[1..])
  }

  /** Whitespace is dropped piece by piece. */
  lemma {:induction false} DropSpacesAppend(a: string, b: string)
    ensures DropSpaces(a + b) == DropSpaces(a) + DropSpaces(b)
    decreases |a|
  {
    if a != [] {
      assert (a + b)[0] == a[0] && (a + b)[1..] == a[1..] + b;
      assert DropSpaces(a + b) == (if IsSpace(a[0]) then [] else [a[0]]) + DropSpaces(a[1..] + b);
      DropSpacesAppend(a[1..], b);
      if !IsSpace(a[0]) {
        Chain([a[0]], DropSpaces(a[1..]), DropSpaces(b), DropSpaces(a), DropSpaces(a) + DropSpaces(b));
      }
    } else {
      assert a + b == b;
    }
  }

  /** `''.join(ws)`: the words one after the other, with no separator. */
  function Join(ws: seq<string>): (r: string)
    ensures ws != [] ==> ws[0] <= r
    ensures (forall k :: 0 <= k < |ws| ==> NoSpace(ws[k])) ==> NoSpace(r)
  {
    if ws == [] then [] else ws[0] + Join(ws[1..])
  }

  lemma JoinCons(w: string, ws: seq<string>)
    ensures Join([w] + ws) == w + Join(ws)
  {
    assert ([w] + ws)[1..] == ws;
  }

  /** `str.split()` with no argument, scanning `s` while `word` holds the
      characters of the word in progress. */
  function SplitFrom(s: string, word: string): (ws: seq<string>)
    requires NoSpace(word)
    ensures forall k :: 0 <= k < |ws| ==> ws[k] != [] && NoSpace(ws[k])
    ensures Join(ws) == word + DropSpaces(s)
    decreases |s|
  {
    if s == [] then
      (if word == [] then [] else [word])
    else if IsSpace(s[0]) then
      var rest := SplitFrom(s[1..], []);
      if word == [] then rest
      else
        JoinCons(word, rest);
        [word] + rest
    else
      var ws := SplitFrom(s[1..], word + [s[0]]);
      assert DropSpaces(s) == [s[0]] + DropSpaces(s[1..]);
      Chain(word, [s[0]], DropSpaces(s[1..]), word + [s[0]], Join(ws));
      ws
  }

  /** `s.split()`: the maximal runs of non-whitespace characters. */
  function Words(s: string): (ws: seq<string>)
    ensures forall k :: 0 <= k < |ws| ==> ws[k] != [] && NoSpace(ws[k])
    ensures Join(ws) == DropSpaces(s)
  {
    SplitFrom(s, [])
  }

  /** A run of non-whitespace characters only extends the word in progress. */
  lemma {:induction false} SplitFromWord(w: string, word: string)
    requires NoSpace(word) && NoSpace(w) && word + w != []
    ensures SplitFrom(w, word) == [word + w]
    decreases |w|
  {
    if w == [] {
      assert word + w == word;
    } else {
      var longer := word + [w[0]];
      assert NoSpace(w[1..]) by {
        assert forall k :: 0 <= k < |w| - 1 ==> w[1..][k] == w[k + 1];
      }
      SplitFromWord(w[1..], longer);
      Chain(word, [w[0]], w[1..], longer, longer + w[1..]);
      assert [w[0]] + w[1..] == w;
    }
  }

  /** A whitespace character ends the word in progress: the words of
      `a + [c] + b` are those of `a` followed by those of `b`. */
  lemma {:induction false} SplitFromSpace(a: string, c: char, b: string, word: string)
    requires NoSpace(word) && IsSpace(c)
    ensures SplitFrom(a + [c] + b, word) == SplitFrom(a, word) + SplitFrom(b, [])
    decreases |a|
  {
    var s := a + [c] + b;
    if a == [] {
      assert s[0] == c && s[1..] == b;
    } else {
      assert s[0] == a[0] && s[1..] == a[1..] + [c] + b;
      if IsSpace(a[0]) {
        SplitFromSpace(a[1..], c, b, []);
        if word != [] {
          Chain([word], SplitFrom(a[1..], []), SplitFrom(b, []), SplitFrom(a, word), SplitFrom(a, word) + SplitFrom(b, []));
        }
      } else {
        SplitFromSpace(a[1..], c, b, word + [a[0]]);
      }
    }
  }

  lemma WordsAroundSpace(a: string, c: char, b: string)
    requires IsSpace(c)
    ensures Words(a + [c] + b) == Words(a) + Words(b)
  {
    SplitFromSpace(a, c, b, []);
  }

  lemma WordsOfWord(w: string)
    requires w != [] && NoSpace(w)
    ensures Words(w) == [w]
  {
    SplitFromWord(w, []);
    assert [] + w == w;
  }

  predicate AllSpace(s: string) {
    forall i :: 0 <= i < |s| ==> IsSpace(s[i])
  }

  /** Whitespace before the text yields no word. */
  lemma {:induction false} WordsAfterSpaces(sp: string, s: string)
    requires AllSpace(sp)
    ensures Words(sp + s) == Words(s)
    decreases |sp|
  {
    if sp == [] {
      assert sp + s == s;
    } else {
      assert sp + s == [] + [sp[0]] + (sp[1..] + s);
      WordsAroundSpace([], sp[0], sp[1..] + s);
      assert AllSpace(sp[1..]) by {
        assert forall k :: 0 <= k < |sp| - 1 ==> sp[1..][k] == sp[k + 1];
      }
      WordsAfterSpaces(sp[1..], s);
    }
  }

  /** A word followed by a run of whitespace is the first word. */
  lemma WordThenSpaces(first: string, sep: string, rest: string)
    requires first != [] && NoSpace(first) && sep != [] && AllSpace(sep)
    ensures Words(first + sep + rest) == [first] + Words(rest)
  {
    assert first + sep + rest == first + [sep[0]] + (sep[1..] + rest);
    WordsAroundSpace(first, sep[0], sep[1..] + rest);
    assert AllSpace(sep[1..]) by {
      assert forall k :: 0 <= k < |sep| - 1 ==> sep[1..][k] == sep[k + 1];
    }
    WordsAfterSpaces(sep[1..], rest);
    WordsOfWord(first);
  }

  /** A word that ends the text or is followed by whitespace is the first word. */
  lemma WordThenEnd(w: string, tail: string)
    requires w != [] && NoSpace(w) && (tail == [] || IsSpace(tail[0]))
    ensures |Words(w + tail)| >= 1 && Words(w + tail)[0] == w
  {
    WordsOfWord(w);
    if tail != [] {
      assert w + tail == w + [tail[0]] + tail[1..];
      WordsAroundSpace(w, tail[0], tail[1..]);
    } else {
      assert w + tail == w;
    }
  }

  /** `s.replace(from, to)` for single characters. */
  function ReplaceChar(s: string, from: char, to: char): (r: string)
    ensures |r| == |s|
    ensures forall i :: 0 <= i < |s| ==> r[i] == (if s[i] == from then to else s[i])
    ensures from != to ==> from !in r
  {
    if s == [] then []
    else [if s[0] == from then to else s[0]] + ReplaceChar(s[1..], from, to)
  }

  lemma ReplaceCharAbsent(s: string, from: char, to: char)
    requires from !in s
    ensures ReplaceChar(s, from, to) == s
  {
  }

  /** Removing whitespace and replacing one non-whitespace character by
      another commute. */
  lemma {:induction false} DropSpacesReplaceCommute(s: string, from: char, to: char)
    requires !IsSpace(from) && !IsSpace(to)
    ensures DropSpaces(ReplaceChar(s, from, to)) == ReplaceChar(DropSpaces(s), from, to)
    decreases |s|
  {
    if s != [] {
      var r := ReplaceChar(s, from, to);
      assert r[1..] == ReplaceChar(s[1..], from, to);
      DropSpacesReplaceCommute(s[1..], from, to);
      if !IsSpace(s[0]) {
        assert ReplaceChar(DropSpaces(s), from, to)
            == [r[0]] + ReplaceChar(DropSpaces(s[1..]), from, to);
      }
    }
  }

  /** Python's `<` on `str`: lexicographic by code point, a proper prefix
      before the longer string. */
  predicate StrLt(a: string, b: string)
    ensures StrLt(a, b) ==> a != b
    ensures a < b ==> StrLt(a, b)
    decreases |a|
  {
    if a == [] then b != []
    else if b == [] then false
    else if a[0] != b[0] then a[0] < b[0]
    else StrLt(a[1..], b[1..])
  }

  lemma {:induction false} StrLtIrreflexive(a: string)
    ensures !StrLt(a, a)
    decreases |a|
  {
    if a != [] {
      StrLtIrreflexive(a[1..]);
    }
  }

  lemma {:induction false} StrLtTransitive(a: string, b: string, c: string)
    requires StrLt(a, b) && StrLt(b, c)
    ensures StrLt(a, c)
    decreases |a|
  {
    if a != [] && a[0] == b[0] && b[0] == c[0] {
      StrLtTransitive(a[1..], b[1..], c[1..]);
    }
  }

  /** Any two strings are equal or ordered one way or the other. */
  lemma {:induction false} StrLtTotal(a: string, b: string)
    ensures a == b || StrLt(a, b) || StrLt(b, a)
    decreases |a|
  {
    if a != [] && b != [] && a[0] == b[0] {
      StrLtTotal(a[1..], b[1..]);
      if a[1..] == b[1..] {
        assert a == [a[0]] + a[1..] && b == [b[0]] + b[1..];
      }
    }
  }
}

=== FILE: wrappers.dfy ===
/** The optional value used wherever the program has either a result or
    nothing: a fetch that raised, a spreadsheet that could not be read. */
module Wrappers {

  datatype Option<+T> = None | Some(value: T) {

    /** The value in Some, or the default for None (Python's `x or default`). */
    function GetOr(default: T): T {
      match this
      case Some(v) => v
      case None => default
    }
  }
}
